=== FILE: README.md ===
# AI investment research pipeline: the control layer in Dafny

This project models the deterministic control layer of a multi-agent research
system that produces a "Talk vs Walk" report on companies' AI investment. A
*lead* agent locates each company's filings. One *analyst* agent per company
counts Generative-AI and Machine-Learning mentions and extracts AI capital
spending and a leadership quote. A *synthesis* agent ranks the companies and
writes the report. Every agent goes through one shared `invoke`, which adds:

- a time-to-live response cache,
- a retry loop with linear backoff around the remote text-generation call,
- a usage ledger that records tokens per agent, with cost estimates.

The model is functional. The process-wide settings object becomes an explicit
`Settings.Config` value. The cache becomes a map from canonical call keys to
timestamped entries, with the clock passed in. The remote service becomes an
oracle `(call number, request) -> outcome`. Sleeping becomes a recorded list of
delays. The JSON decoder becomes an abstract `string -> Option<Json>`. The
orchestrator's state is the record `Orchestrator(cfg, agents, world, ledger,
modelsUsed)`, and every operation returns the new state. Its `agents` are the
three agent operations as functions of the world (`Locator`, `Analyzer`,
`Reporter`). The constructor builds them with `AgentsFor` from
`LeadAgent.LocateDocuments`, `CompanyAnalysisAgent.AnalyzeDocuments` and
`SynthesisAgent.CreateReport` over the one client, and no operation replaces
them. So every stage contract stated in terms of `o.agents` is a statement
about those three operations (`AgentsForCalls`).

One module per source file:

| module | file |
|---|---|
| `Common`, `JsonValue` | shared `Option`/`Result`, `str.join`, `dict.get`, decoded JSON values, Python iteration |
| `Settings` | `settings.dfy` |
| `CacheStore` | `cache.dfy` |
| `TokenCounter` | `token_counter.dfy` |
| `BaseAgent` | `base_agent.dfy` |
| `LeadAgent` | `lead_agent.dfy` |
| `CompanyAnalysisAgent` | `company_analysis_agent.dfy` |
| `SynthesisAgent` | `synthesis_agent.dfy` |
| `Orchestrator` | `orchestrator.dfy` |

The retry loop and the string and list builders are pure functions. The
orchestrator's stages and the phase-2 loop are methods. Each one's
postcondition states its result and new state in terms of the agent calls it
makes, on the world the previous stage left. `RunAnalysis` states the whole
run that way: phase 1's answer, phase 2 over its items (`AnalyzeAll`), phase 3
over exactly phase 2's analyses, and the ledger and `models_used` after all
three.

Two behaviours of the code matter here:

- **Phase 2 errors.** The phase-2 loop at `orchestrator.py:121-137` has no
  exception handler, so a service error (or a descriptor without a `company`)
  ends the whole run. `AnalyzeAll`, `AnalyzeCompanies` and `RunAnalysis` model
  that. The ledger and `models_used` in the returned state hold what the
  passes before the error recorded (`Completed`), as they do in Python.
- **Phase 1 result.** The locator returns whatever the answer decodes to, not
  necessarily a list. A decoded `null` counts as undecodable (the fallback
  list is used). A number or boolean has no `len`, so the locator's log line
  raises `TypeError` before phase 1 is recorded. Phase 2 iterates the answer
  as Python would (`JsonValue.Iterate`): the items of a list, the keys of an
  object, the characters of a string.

## Model

| member | source | states |
|---|---|---|
| Settings.DefaultConfig | config/settings.py:24-41 | With nothing set in the environment: caching on, parallel execution off, verbose on, 3 attempts, 2-second delay, and the sub-agent and synthesis models equal to the default model while the lead model differs |
| Settings.ModelForAgent | config/settings.py:59-67 | `lead`, `sub` and `synthesis` map to their configured models; any other type gets the default model |
| Settings.MaxTokensForAgent | config/settings.py:69-77 | `lead`, `sub` and `synthesis` map to their limits; any other type gets 4000 |
| Settings.Validate | config/settings.py:43-51 | Fails exactly when the API key is empty, and otherwise answers true |
| Settings.ParseFlagAccepts | config/settings.py:35-37 | A flag is on exactly for the case variants of `true` (four characters t/T, r/R, u/U, e/E) |
| Settings.LoadFlags | config/settings.py:34-37 | An unset flag takes its default (caching on, parallel off, verbose on); a set flag is on iff its lower-cased text is `true` |
| CacheStore.NewCache | utils/cache.py:13-21 | A new cache keeps the given entries and has a lifetime of 24 hours |
| CacheStore.FingerprintOf | utils/cache.py:24-31 | The canonical key keeps the positional arguments and permutes the keyword arguments |
| CacheStore.SortByNameSorted | utils/cache.py:30 | Keyword arguments with distinct names come out strictly ordered by name, as `sort_keys=True` orders them |
| CacheStore.FingerprintIgnoresKeywordOrder | utils/cache.py:24-31 | Two calls share a key iff they pass the same positional arguments and the same keyword arguments, in any keyword order |
| CacheStore.Get | utils/cache.py:37-58 | A read hits iff an entry exists, is readable and is at most `ttl` seconds old (a strict `>` for expiry), and then returns the stored value; a stale entry is deleted, a corrupt or missing one is left as it is |
| CacheStore.Set | utils/cache.py:60-71 | A write stores the value with the current time under the call's key, replacing any entry there, and leaves every other entry untouched |
| CacheStore.SetThenGet | utils/cache.py:37-71 | A value written is read back unchanged, with nothing deleted, while at most `ttl` seconds old |
| CacheStore.SetThenGetStale | utils/cache.py:49-53 | After more than `ttl` seconds the same read misses and deletes the entry |
| CacheStore.SetKeepsOtherReads | utils/cache.py:60-71 | A write under one key does not change what a read under another key returns |
| CacheStore.GetKeepsOtherReads | utils/cache.py:37-58 | A read under one key, even one that deletes that key's stale file, does not change what a read under another key returns |
| CacheStore.Clear | utils/cache.py:73-79 | Every entry is removed and the count is the number there were |
| CacheStore.ClearExpired | utils/cache.py:81-95 | Exactly the live entries remain, unchanged; stale and corrupt ones are removed and counted |
| TokenCounter.Add | utils/token_counter.py:14-18 | Adding usage keeps `total == input + output` and never decreases a counter |
| TokenCounter.AddTwice | utils/token_counter.py:14-18 | Two additions equal one addition of the sums |
| TokenCounter.EmptyLedgerValid | utils/token_counter.py:25-27 | The empty ledger satisfies the ledger invariant |
| TokenCounter.BumpSum | utils/token_counter.py:49-50 | Adding to an existing agent's record adds the same amount to the sum of all records |
| TokenCounter.Track | utils/token_counter.py:37-50 | Adds the usage to the agent's record (created at zero on first use) and to the global record, leaves every other agent's record unchanged, and keeps the invariant: one record per agent, each consistent, global = sum of per-agent records |
| TokenCounter.TrackAccumulates | utils/token_counter.py:46-50 | Tracking (A, 100, 50) then (A, 10, 5) leaves A at 110 / 55 / 165, and the global record too |
| TokenCounter.PriceOf | utils/token_counter.py:31-35 | A model in the price table gets its price; any other model gets the Sonnet price |
| TokenCounter.EstimateCost | utils/token_counter.py:52-71 | The cost is non-negative, and zero exactly when no tokens were used |
| TokenCounter.EstimateCostFallback | utils/token_counter.py:63-65 | A model missing from the table costs what the Sonnet model costs |
| TokenCounter.EstimateCostAdditive | utils/token_counter.py:67-71 | The cost of two batches of tokens is the cost of their sum |
| TokenCounter.TotalCostEstimate | utils/token_counter.py:73-89 | The total estimate is non-negative |
| TokenCounter.BumpCost | utils/token_counter.py:49-50 | Adding to an existing agent's record raises the summed estimate by the cost of the added tokens at that agent's billed model |
| TokenCounter.AppendCost | utils/token_counter.py:46-47 | Appending a new agent's record raises the summed estimate by that record's cost at its billed model |
| TokenCounter.TrackCost | utils/token_counter.py:37-89 | After `track`, `get_total_cost_estimate` is the old estimate plus the tracked tokens' cost at the agent's recorded model (Sonnet when none is recorded), for a new agent and an existing one alike |
| TokenCounter.TotalCostUniform | utils/token_counter.py:82-89 | When every tracked agent is billed at one model, the total is that model's price for the global counters |
| TokenCounter.TotalCostUnrecorded | utils/token_counter.py:84-86 | With no models recorded, everything is billed at the Sonnet price |
| TokenCounter.GetSummary | utils/token_counter.py:91-109 | The summary's global counters are exactly the ledger's global record, which for a consistent ledger is the sum of the per-agent records; it reports every agent's current record, one entry per agent |
| Common.Join | agents/base_agent.py:116 | Joining no parts gives the empty string; a join starts with its first part |
| Common.JoinSnoc | agents/base_agent.py:109-116 | Joining one more part appends the separator and that part |
| Common.LookupSpec | agents/company_analysis_agent.py:149-156 | `dict.get` misses iff no item has the key, and a hit is the value of an item with that key |
| JsonValue.Iterate | orchestrator.py:121 | A list is iterated over its items; only lists, objects and strings are iterable; a value iterates over nothing iff it is falsy |
| BaseAgent.Backoff | agents/base_agent.py:162-163 | The delays are `delay * (k + 1)` for successive 0-indexed attempts |
| BaseAgent.RetryFrom | agents/base_agent.py:137-174 | From attempt k: at most `maxRetries - k` calls, every call but the last rate-limited, linear backoff between them, and the last call's outcome decides the result; the rate-limit error surfaces only once all attempts are used |
| BaseAgent.CallApiWithRetry | agents/base_agent.py:118-179 | With no attempt allowed, no call and the "no response" error; otherwise 1 to `maxRetries` calls with the same properties as `RetryFrom` |
| BaseAgent.RetryExhaustion | agents/base_agent.py:160-170 | A service that rate-limits every attempt gets exactly `maxRetries` calls, delays `delay*1 .. delay*(maxRetries-1)`, and the rate-limit error |
| BaseAgent.RetryShortCircuit | agents/base_agent.py:172-174 | Any other failure on the first attempt ends the loop after that one call, without sleeping |
| BaseAgent.RetryDefaultSchedule | agents/base_agent.py:134-170 | With 3 attempts and a 2-second delay, an always-rate-limited service is called 3 times with sleeps 2 and 4 |
| BaseAgent.BuildPrompt | agents/base_agent.py:99-116 | The prompt is the role, then `\nContext:\n` + context only when the context is non-empty, then `\nTask:\n` + prompt, joined by blank lines |
| BaseAgent.Invoke | agents/base_agent.py:46-97 | The cache takes part only when asked, present and enabled. A hit returns the cached text with zero tokens and changes nothing. A miss returns the retry loop's result and adds its calls and sleeps. When the cache takes part, the cache after a miss is the cache after the read (which deletes a stale entry under the key), with a successful answer then written under that key and nothing else changed. Without the cache, the cache is untouched |
| BaseAgent.InvokeKeepsOtherReads | agents/base_agent.py:64-91 | An invocation touches only its own cache entry: a read under any other key answers afterwards as it did before |
| BaseAgent.CacheHitIsFree | agents/base_agent.py:64-97 | Repeating a successful cached invocation at the same instant returns the first text with zero tokens and makes no call |
| BaseAgent.InvokeIgnoresParallelFlag | agents/base_agent.py:46-97 | `invoke` gives the same result whatever the parallel-execution flag |
| BaseAgent.Find | agents/base_agent.py:197 | `str.find`: -1 iff the character is absent, else the index of its first occurrence |
| BaseAgent.RFind | agents/base_agent.py:198 | `str.rfind`: -1 iff the character is absent, else the index of its last occurrence |
| BaseAgent.Span | agents/base_agent.py:196-212 | For distinct delimiters, a span exists iff an opening one occurs before a closing one; it runs from the first opening to the last closing delimiter |
| BaseAgent.SpanBounds | agents/base_agent.py:197-198 | For distinct delimiters, the guard `end > start` over `find` and `rfind` holds exactly when some opening delimiter comes before some closing one |
| BaseAgent.Candidates | agents/base_agent.py:190-212 | The whole text is always the first text tried, and at most three texts are tried |
| BaseAgent.FirstParsed | agents/base_agent.py:190-215 | The first candidate that decodes wins; the result is none iff no candidate decodes |
| BaseAgent.ExtractJson | agents/base_agent.py:190-194 | Text that decodes as a whole to anything but `null` is returned decoded; whole text decoding to `null` gives none at once; the result is never `null` |
| BaseAgent.ExtractJsonFirstCandidate | agents/base_agent.py:181-215 | The result is the first of whole text, brace span, bracket span that decodes, unless that is `null`; it is none exactly when none of them decodes or the first that does is `null` |
| LeadAgent.LocatePrompt | agents/lead_agent.py:49-72 | The request starts with its heading, has nothing between heading and closing instructions for no company, and names exactly the one company for one |
| LeadAgent.LocatePromptSnoc | agents/lead_agent.py:49-72 | Naming one more company inserts `", "` and its name just before the closing instructions, so every name appears in order, `", "`-separated |
| LeadAgent.DefaultDescriptorFields | agents/lead_agent.py:85-93 | A default descriptor has exactly the six fields: its company, ticker `N/A`, fiscal year end `2024`, the EDGAR company search for that name, and `N/A` investor-relations and transcript addresses |
| LeadAgent.FallbackDescriptors | agents/lead_agent.py:82-95 | The fallback has one default descriptor per requested company, in the order requested |
| LeadAgent.LocateDocuments | agents/lead_agent.py:38-98 | A cached call with an empty context; a service error propagates; an answer that decodes (to anything but `null`) is returned as decoded, otherwise the fallback list; a decoded number or boolean is a `TypeError` from `len` at line 97; the token counts are the call's |
| LeadAgent.FallbackIteratesCompanies | agents/lead_agent.py:82-95 | When the answer cannot be decoded, phase 2 sees exactly one descriptor per company |
| CompanyAnalysisAgent.AnalystName | agents/company_analysis_agent.py:50 | The analyzer's name is the company followed by `Analyst` |
| CompanyAnalysisAgent.Analyst | agents/company_analysis_agent.py:39-55 | The analyzer agent carries that name and the `sub` type |
| CompanyAnalysisAgent.SourceLines | agents/company_analysis_agent.py:78-80 | A source line is written for every truthy value other than `N/A`, and there are none iff no value qualifies |
| CompanyAnalysisAgent.ListedPositions | agents/company_analysis_agent.py:78-79 | The positions of the truthy, non-`N/A` descriptor values: all of them, only them, in increasing order |
| CompanyAnalysisAgent.SourceLinesFilter | agents/company_analysis_agent.py:78-80 | The source lines are exactly the listed values' lines in descriptor order: the k-th line renders the k-th listed entry, and there is one line per listed entry |
| CompanyAnalysisAgent.AnalysisContext | agents/company_analysis_agent.py:74-82 | The context starts with `Analyzing: <company>` and is exactly that line iff the descriptor is empty |
| CompanyAnalysisAgent.SourceLinesSnoc | agents/company_analysis_agent.py:78-80 | An added descriptor entry adds its source line at the end when listed, and nothing otherwise |
| CompanyAnalysisAgent.AnalysisContextSnoc | agents/company_analysis_agent.py:74-82 | An added entry appends `"\n"` and its source line to the context when listed and leaves it unchanged otherwise; the first entry starts from the `Document sources:` heading |
| CompanyAnalysisAgent.AnalysisContextHeading | agents/company_analysis_agent.py:74-82 | A non-empty descriptor's context starts with `Analyzing: <company>`, a newline and `Document sources:` |
| CompanyAnalysisAgent.Excerpt | agents/company_analysis_agent.py:85-89 | The excerpt is the prefix of the document text of length min(length, 30000) |
| CompanyAnalysisAgent.PromptQuotesExcerpt | agents/company_analysis_agent.py:84-124 | Non-empty document text appears in the prompt as its first 30000 characters right after the heading; empty text gives the knowledge-based prompt, as if none were supplied |
| CompanyAnalysisAgent.IntField | agents/company_analysis_agent.py:149-150 | A missing key gives the default, a present integer its value, and any other present value a type error |
| CompanyAnalysisAgent.StrField | agents/company_analysis_agent.py:151-153 | A missing key gives the default, a present string its value, and any other present value a type error |
| CompanyAnalysisAgent.DecodeFindings | agents/company_analysis_agent.py:146-153 | Data that is not an object has no `.get`: an `AttributeError` |
| CompanyAnalysisAgent.DecodeDefaults | agents/company_analysis_agent.py:147-153 | An object without any of the five keys decodes to 0, 0, `Not disclosed`, `No quote found`, "" |
| CompanyAnalysisAgent.DecodeErrorData | agents/company_analysis_agent.py:136-144 | The substituted error data decodes to 0, 0, `Error in analysis`, `Error in analysis`, `Analysis failed` |
| CompanyAnalysisAgent.AnalysisFromAnswer | agents/company_analysis_agent.py:133-165 | A service error propagates. An answer that does not decode, or decodes to `null`, gives the fixed error analysis. A result names the company, lists `tenk_url` and `earnings_transcript_url` (`""` when missing), carries the decoded findings, and passes the token counts through |
| CompanyAnalysisAgent.AnalyzeDocuments | agents/company_analysis_agent.py:58-131 | The result is `AnalysisFromAnswer` of the answer of a cached `invoke` by the company's analyzer, with the descriptor context (`AnalysisContext`) and the prompt over the truncated content (`AnalysisPrompt`), and the world is the one that call leaves; so the analysis names the company, the clock is not moved and without caching the cache is untouched |
| CompanyAnalysisAgent.UndecodableAnswerGivesErrorAnalysis | agents/company_analysis_agent.py:134-144 | An answer that cannot be decoded yields the fixed error findings, never a failure |
| SynthesisAgent.Rows | agents/synthesis_agent.py:56-66 | One row per analysis, in order, each carrying its analysis's fields |
| SynthesisAgent.InsertDesc | agents/synthesis_agent.py:69 | Inserting adds exactly one row, so the multiset of rows grows by that row |
| SynthesisAgent.InsertDescSorted | agents/synthesis_agent.py:69 | Inserting into rows ordered by total keeps them ordered |
| SynthesisAgent.SortDescSorted | agents/synthesis_agent.py:69 | The sorted rows are ordered by total mentions, highest first |
| SynthesisAgent.SortDescPermutes | agents/synthesis_agent.py:69 | The sorted rows are a permutation of the input rows |
| SynthesisAgent.HavingInsert | agents/synthesis_agent.py:69 | Inserting a row keeps the relative order of the rows of every total, and puts it in front of equal ones |
| SynthesisAgent.SortDescStable | agents/synthesis_agent.py:69 | The sort is stable: the rows of each total keep their input order |
| SynthesisAgent.SynthesisRowsOrdered | agents/synthesis_agent.py:56-69 | The serialised rows are the analyses' rows, highest total first, a permutation of them, and stable on ties |
| SynthesisAgent.ReportContext | agents/synthesis_agent.py:71 | The context starts with the `Company Analysis Data:` heading line |
| SynthesisAgent.CreateReport | agents/synthesis_agent.py:124-132 | The cache is neither read nor written; the call goes through the retry loop; the report text and token counts are the answer's, and a failure is the loop's failure |
| Orchestrator.EffectiveConfig | orchestrator.py:23-24 | A non-empty explicit key replaces the configured one; otherwise the settings are unchanged |
| Orchestrator.AgentsForCalls | orchestrator.py:103-152 | The built agents answer exactly as `locate_documents`, `analyze_documents` without document text, and `create_report` do |
| Orchestrator.AgentsForBehaved | orchestrator.py:107-152 | The built agents keep the clock, leave the cache alone while caching is off, never drop it, and each analysis names its analyzer's company |
| Orchestrator.NewOrchestrator | orchestrator.py:16-41 | Construction fails iff no key is configured or given. Otherwise: the agents built over the client under the effective settings, empty ledger, no models, no calls, a cache exactly when caching is enabled, and the state invariant |
| Orchestrator.DescriptorCompany | orchestrator.py:122 | A descriptor yields a company iff it is an object with a string under `company`, and then that string; a non-object is a `TypeError`, a missing key a `KeyError` |
| Orchestrator.AnalystNames | orchestrator.py:135 | The i-th name is the i-th analysis's analyzer name, and no analyzer name is `LeadAgent` or `SynthesisAgent` |
| Orchestrator.NotAFixedName | orchestrator.py:73-74 | An analyzer's name never equals one of the two fixed ledger names |
| Orchestrator.RecordModel | orchestrator.py:136 | Mapping each name in turn to a model: exactly the old names and the given ones are mapped, the given ones to that model and the rest as before |
| Orchestrator.AnalyzeAll | orchestrator.py:121-137 | Phase 2 over the world: each descriptor analysed in turn on the world the previous pass left, stopping at the first error; on success one pass per descriptor |
| Orchestrator.Completed | orchestrator.py:121-137 | The passes finished before phase 2 ended: all of `AnalyzeAll`'s passes on success, and fewer passes than descriptors on failure |
| Orchestrator.AnalyzeAllCompanies | orchestrator.py:122-131 | With analyzers that name their company, the i-th pass names the i-th descriptor's company |
| Orchestrator.TrackPasses | orchestrator.py:137 | Tracking the passes in order keeps the ledger invariant and adds all their tokens to the global record |
| Orchestrator.SpentBy | orchestrator.py:135-137 | A name that is no pass's analyzer spent nothing |
| Orchestrator.TrackPassesUsage | orchestrator.py:135-137 | Tracking the passes adds to each analyzer's record exactly its passes' tokens (created at zero) and leaves every other record as it was |
| Orchestrator.TrackPassesCost | orchestrator.py:137 | Tracking the passes raises the total estimate by each pass's cost at its analyzer's billed model |
| Orchestrator.AnalyzeDescriptor | orchestrator.py:121-137 | One loop pass: a descriptor without a company stops before any call, changing nothing. Otherwise the company's analyzer runs on the current world; its analysis is the result, its tokens are tracked under `<company>Analyst` (that record and the global one grow by exactly them), and that name maps to the sub-agent model. A failed analysis leaves ledger and models unchanged |
| Orchestrator.AnalyzeCompanies | orchestrator.py:115-145 | Computes `AnalyzeAll` on the current world: on success the analyses are its passes' analyses, in order, the ledger is the old one with every pass tracked under its analyzer's name, and `models_used` maps every analyzer to the sub-agent model with every other name unchanged. On failure the ledger and `models_used` hold exactly the passes finished before the error (`Completed`). The invariant is kept |
| Orchestrator.Metadata | orchestrator.py:167-174 | The metadata block starts with `---\n` and ends with `---\n\n` |
| Orchestrator.SaveReport | orchestrator.py:159-178 | The saved text is the metadata block followed by the report, so the report is recoverable as its suffix |
| Orchestrator.LocateStage | orchestrator.py:70-74 | Phase 1: fails exactly when the locator fails (a service error or the `len` TypeError), changing neither ledger nor models; otherwise returns the locator's answer, tracks its tokens under `LeadAgent` (that record and the global one grow by exactly them) and maps `LeadAgent` to the lead model |
| Orchestrator.SynthesisStage | orchestrator.py:86-90 | Phase 3: the synthesis agent reports over the given analyses on the current world; a failure is its service error, changing neither ledger nor models; otherwise the report is its answer, its tokens are tracked under `SynthesisAgent` (that record and the global one grow by exactly them), and `SynthesisAgent` maps to the synthesis model |
| Orchestrator.RunAnalysis | orchestrator.py:47-101 | Phase 1's answer is iterated (a `TypeError` when it cannot be) and phase 2 runs over its items on the world phase 1 left; phase 3 reports over exactly phase 2's analyses on the world phase 2 left. On success the run holds phase 1's answer, phase 2's analyses, phase 3's report and the saved text; the ledger is the old one with the locator, each pass and the synthesiser tracked in that order; `models_used` records the lead, every analyzer and the synthesiser. Every failure is the failing stage's error, and the ledger and `models_used` then hold what the stages before it (and, in phase 2, the passes finished before the error) recorded. The invariant holds, the clock does not move, and without caching the cache is untouched |
| Orchestrator.RunLedger | orchestrator.py:70-90 | After a run's tracking, the lead's, the synthesiser's and every analyzer's record grew by exactly its calls' tokens, and the global record by all of them |
| Orchestrator.RunCost | utils/token_counter.py:73-89 | After a run's tracking, `get_total_cost_estimate` is the old estimate plus the locator's, every pass's and the synthesiser's cost, each at its agent's billed model |
| Orchestrator.RunModels | orchestrator.py:73-136 | After a run, `models_used` maps `LeadAgent`, every analyzer and `SynthesisAgent` to their models and keeps every other entry |
| Orchestrator.LocateIgnoresParallelFlag | orchestrator.py:45 | Phase 1 computes the same whatever the parallel-execution flag |
| Orchestrator.AnalyzeIgnoresParallelFlag | orchestrator.py:121-131 | A phase-2 analysis computes the same whatever the flag, so the loop is the same sequential loop |
| Orchestrator.ReportIgnoresParallelFlag | orchestrator.py:45 | Phase 3 computes the same whatever the flag |
| Orchestrator.ClearCache | orchestrator.py:203-213 | Without a cache: 0 and nothing changes. Otherwise the cache is emptied and the count is the number of entries there were |
| Orchestrator.ClearExpiredCache | orchestrator.py:215-225 | Without a cache: 0 and nothing changes. Otherwise exactly the live entries remain and the count is the number removed |

## Left out

- The remote client and its network call are replaced by the `Service` oracle. Sleeping is replaced by the recorded delays in `World.sleeps`.
- Cache file I/O is abstracted away: directory globbing, file names, ISO timestamp parsing and writing. A file whose JSON or timestamp cannot be read is the `Corrupt` entry. A file with a readable timestamp but no `value` key, which only a hand edit can produce, is not modelled. Python's `get` deletes such a file when it is stale, and returns nothing without deleting it when it is fresh. `clear_expired` keeps it when it is fresh.
- CacheStore.FingerprintOf: MD5 is taken to be collision-free, so the canonical key itself is the fingerprint. Values are strings only, which is all `invoke` passes.
- The clock (`datetime.now()`) is the field `World.now`, fixed for a run, in whole seconds. The report's `generated` timestamp and the output file name are parameters, and `SaveReport` returns the written text rather than the file path.
- The JSON decoder and `json.dumps` are parameters (`Parser`, `dump`, `show`). A decoded object is an association list, and `Lookup` takes the first item with a key. Python's decoder keeps the last duplicate, so decoded objects are assumed to have distinct keys. JSON numbers are integers only.
- TokenCounter.EstimateCost: prices are exact reals, so floating-point rounding is not modelled.
- Prompt wording: the role texts and request texts are cut to their first sentence. Their content does not affect any property proved.
- Settings.LoadFlags: lower-casing covers ASCII letters only.
- Reading the environment (`load_dotenv`, `os.getenv`, the `int(...)` conversions) and `ensure_directories` are not modelled. `Config` is given.
- `RETRY_DELAY` is a natural number and `MAX_RETRIES` an integer. No other retry count is passed: every call uses the configured one.
- A cached value without a `text` key (a Python `KeyError` in `invoke`) cannot occur, because the cache stores typed replies.
- Orchestrator.DescriptorCompany: a `company` value that is not a string is a `TypeError`. Python would format it into the analyzer's name.
- CompanyAnalysisAgent.IntField: mention counts that are not integers are a `TypeError`. Python would keep the value as it is.
- CompanyAnalysisAgent.StrField: a present `capex_ai`, `cfo_quote` or `key_insights` value that is not a string (`null`, say) is a `TypeError` that ends the run before the pass is tracked. For `cfo_quote` and `key_insights`, and for `capex_ai` when `VERBOSE` is off, Python keeps the value and phases 2 and 3 carry on. `VERBOSE` is on by default (config/settings.py:37), and then the progress line takes `len(analysis.capex_ai)` (orchestrator.py:140). So a `null`, number or boolean `capex_ai` raises `TypeError` in Python too. The one difference is that Python raises only after the pass has been tracked and its model recorded (orchestrator.py:135-137). Python keeps a list or object `capex_ai` there, except that an object of more than 60 keys raises at the slice.
- The agents are given to the orchestrator as functions of the world, so the run's contracts speak of `o.agents`; `AgentsForCalls` connects them to the three agent operations. A fresh `CompanyAnalysisAgent` per company is modelled by passing the company to the one `Analyzer`.
- The parallel-execution flag is compared per stage function (`...IgnoresParallelFlag`), not over whole runs, because the run is a method.
- Logging, `print`, the verbose console output, `print_summary` and the command-line entry point are out of scope. So are the package re-exports.
- Concurrency: the code has none, so none is modelled.

=== FILE: base_agent.dfy ===
/** What every agent shares: the cache-gated `invoke`, the prompt layout, the
    retry/backoff loop around the remote call, and the recovery of a JSON value
    from free-form response text. */
module BaseAgent {
  import opened Common
  import opened JsonValue
  import Settings
  import CacheStore

  // ---------------------------------------------------------------------------
  // The remote service and the world around it

  /** What one remote call is asked to do. */
  datatype Request = Request(model: string, maxTokens: int, prompt: string)

  /** What one remote call does: answer with text and token counts, reject the
      call for exceeding the rate limit, or fail in any other way. */
  datatype Outcome =
    | Ok(text: string, inputTokens: nat, outputTokens: nat)
    | RateLimited
    | ApiFailure(message: string)

  /** The remote service: the outcome of the `n`-th call of the run (counting
      from 0) for a request. */
  type Service = (nat, Request) -> Outcome

  /** The abstract JSON decoder: a value, or `None` where decoding raises. */
  type Parser = string -> Option<Json>

  /** The error an invocation raises: the last rate-limit error once the
      attempts are used up, any other service error, or the "no response" error
      raised when no attempt is allowed at all. */
  datatype ApiError = RateLimitError | OtherError(message: string) | NoResponse

  /** Why a stage fails: a service error, or the Python exception raised on a
      decoded response whose shape the program cannot use. */
  datatype AgentError = ServiceError(error: ApiError) | TypeError | KeyError | AttributeError

  /** An answer: text and token counts, which is also what the cache stores. */
  datatype Reply = Reply(text: string, inputTokens: nat, outputTokens: nat)

  /** The state `invoke` threads through a run: the cache (absent when caching
      is off), how many remote calls have been made, the backoff delays slept
      so far, and the clock reading used for cache reads and writes. */
  datatype World = World(
    cache: Option<CacheStore.Cache<Reply>>,
    calls: nat,
    sleeps: seq<nat>,
    now: int)

  /** An agent: its name (the cache identity), its role text and its type,
      which selects model and output-token limit. */
  datatype Agent = Agent(name: string, role: string, agentType: string)

  // ---------------------------------------------------------------------------
  // Retry / backoff

  /** The trace of one retried call: its result, how many remote calls it
      made, and the delays it slept between them. */
  datatype Attempts = Attempts(result: Result<Reply, ApiError>, calls: nat, sleeps: seq<nat>)

  /** The linear backoff schedule: `n` delays `delay * (from + 1)`, `delay * (from + 2)`, ... */
  function Backoff(delay: nat, from: nat, n: nat): (s: seq<nat>)
    ensures |s| == n
    ensures forall j :: 0 <= j < n ==> s[j] == delay * (from + j + 1)
  {
    seq(n, j requires 0 <= j < n => delay * (from + j + 1))
  }

  /** How a single call's outcome ends the loop when it is the last call made. */
  predicate Settles(o: Outcome, r: Result<Reply, ApiError>) {
    match o
    case Ok(t, i, out) => r == Success(Reply(t, i, out))
    case RateLimited => r == Failure(RateLimitError)
    case ApiFailure(m) => r == Failure(OtherError(m))
  }

  /** The loop from 0-indexed attempt `k` on: a rate-limited attempt before the
      last sleeps `delay * (k + 1)` and tries again; the last rate-limited
      attempt raises; any other outcome ends the loop at once. */
  function RetryFrom(service: Service, req: Request, first: nat, k: nat, maxRetries: int, delay: nat): (a: Attempts)
    requires 0 <= k < maxRetries
    decreases maxRetries - k
    ensures 1 <= a.calls <= maxRetries - k
    ensures a.sleeps == Backoff(delay, k, a.calls - 1)
    ensures forall n :: first + k <= n < first + k + a.calls - 1 ==> service(n, req).RateLimited?
    ensures Settles(service(first + k + a.calls - 1, req), a.result)
    ensures a.result == Failure(RateLimitError) ==> k + a.calls == maxRetries
  {
    match service(first + k, req)
    case Ok(t, i, o) => Attempts(Success(Reply(t, i, o)), 1, [])
    case ApiFailure(m) => Attempts(Failure(OtherError(m)), 1, [])
    case RateLimited =>
      if k < maxRetries - 1 then
        var rest := RetryFrom(service, req, first, k + 1, maxRetries, delay);
        assert [delay * (k + 1)] + rest.sleeps == Backoff(delay, k, rest.calls);
        Attempts(rest.result, rest.calls + 1, [delay * (k + 1)] + rest.sleeps)
      else
        Attempts(Failure(RateLimitError), 1, [])
  }

  /** `_call_api_with_retry`: at most `maxRetries` calls, numbered from `first`;
      every call but the last was rate-limited and was followed by the linear
      backoff delay; the last call's outcome decides the result. With no
      attempt allowed, no call is made and "no response" is raised. */
  function CallApiWithRetry(service: Service, req: Request, first: nat, maxRetries: int, delay: nat): (a: Attempts)
    ensures maxRetries <= 0 ==> a == Attempts(Failure(NoResponse), 0, [])
    ensures maxRetries > 0 ==> 1 <= a.calls <= maxRetries
    ensures a.calls >= 1 ==> a.sleeps == Backoff(delay, 0, a.calls - 1)
    ensures forall n :: first <= n < first + a.calls - 1 ==> service(n, req).RateLimited?
    ensures maxRetries > 0 ==> Settles(service(first + a.calls - 1, req), a.result)
    ensures a.result == Failure(RateLimitError) ==> a.calls == maxRetries
  {
    if maxRetries <= 0 then Attempts(Failure(NoResponse), 0, [])
    else RetryFrom(service, req, first, 0, maxRetries, delay)
  }

  /** A service that rate-limits every attempt gets exactly `maxRetries`
      calls, the delays `delay * 1 ... delay * (maxRetries - 1)`, and the
      rate-limit error rather than a result. */
  lemma RetryExhaustion(service: Service, req: Request, first: nat, maxRetries: int, delay: nat)
    requires maxRetries >= 1
    requires forall n :: first <= n < first + maxRetries ==> service(n, req).RateLimited?
    ensures var a := CallApiWithRetry(service, req, first, maxRetries, delay);
      && a.calls == maxRetries
      && a.result == Failure(RateLimitError)
      && a.sleeps == Backoff(delay, 0, maxRetries - 1)
  {
    var a := CallApiWithRetry(service, req, first, maxRetries, delay);
    assert service(first + a.calls - 1, req).RateLimited?;
  }

  /** A non-rate-limit failure on the first attempt ends the call after that
      one attempt, without sleeping. */
  lemma RetryShortCircuit(service: Service, req: Request, first: nat, maxRetries: int, delay: nat)
    requires maxRetries >= 1
    requires service(first, req).ApiFailure?
    ensures CallApiWithRetry(service, req, first, maxRetries, delay)
         == Attempts(Failure(OtherError(service(first, req).message)), 1, [])
  {
  }

  /** With the default three attempts and two-second delay, a service that is
      always rate-limited is called three times with sleeps of 2 and 4 seconds. */
  lemma RetryDefaultSchedule(service: Service, req: Request, first: nat)
    requires forall n :: first <= n < first + 3 ==> service(n, req).RateLimited?
    ensures CallApiWithRetry(service, req, first, 3, 2) == Attempts(Failure(RateLimitError), 3, [2, 4])
  {
    RetryExhaustion(service, req, first, 3, 2);
  }

  // ---------------------------------------------------------------------------
  // Prompt layout

  /** `_build_prompt`: the role, an optional context section, and the `Task:` section,
      joined by blank lines. The context section is present exactly when the
      context is non-empty. */
  function BuildPrompt(role: string, prompt: string, context: string): (r: string)
    ensures context != "" ==> r == role + "\n\n" + "\nContext:\n" + context + "\n\n" + "\nTask:\n" + prompt
    ensures context == "" ==> r == role + "\n\n" + "\nTask:\n" + prompt
  {
    var task := "\nTask:\n" + prompt;
    if context != "" then
      var parts := [role, "\nContext:\n" + context, task];
      assert parts[1..] == [parts[1], task] && parts[1..][1..] == [task];
      assert Join(parts[1..], "\n\n") == parts[1] + "\n\n" + task;
      Join(parts, "\n\n")
    else
      var parts := [role, task];
      assert parts[1..] == [task];
      assert Join(parts[1..], "\n\n") == task;
      Join(parts, "\n\n")
  }

  // ---------------------------------------------------------------------------
  // Invocation

  /** The cache key of an invocation: the agent's name, the prompt and the context. */
  function InvocationKey(name: string, prompt: string, context: string): CacheStore.CallKey {
    CacheStore.CallKey([], [("agent_name", name), ("prompt", prompt), ("context", context)])
  }

  /** The cache takes part only when the caller asks for it, a cache exists and
      caching is enabled. */
  predicate CacheGate(cfg: Settings.Config, w: World, useCache: bool) {
    useCache && w.cache.Some? && cfg.enableCaching
  }

  /** The cache read `invoke` starts with, when the cache takes part. */
  function CachedReply(cfg: Settings.Config, w: World, agent: Agent, prompt: string, context: string, useCache: bool): Option<Reply> {
    if CacheGate(cfg, w, useCache)
    then CacheStore.Get(w.cache.value, InvocationKey(agent.name, prompt, context), w.now).1
    else None
  }

  /** The request `invoke` sends on a cache miss. */
  function RequestFor(cfg: Settings.Config, agent: Agent, prompt: string, context: string): Request {
    Request(Settings.ModelForAgent(cfg, agent.agentType),
            Settings.MaxTokensForAgent(cfg, agent.agentType),
            BuildPrompt(agent.role, prompt, context))
  }

  /** `invoke`. A cache hit answers with the cached text and zero tokens and
      makes no call. Otherwise the assembled prompt goes through the retry
      loop; a successful answer is written back to the cache when the cache
      takes part, and returned as it came. When the cache does not take part
      it is neither read nor written. */
  function Invoke(cfg: Settings.Config, service: Service, agent: Agent, w: World,
                  prompt: string, context: string, useCache: bool): (r: (Result<Reply, ApiError>, World))
    ensures r.1.now == w.now
    ensures !CacheGate(cfg, w, useCache) ==> r.1.cache == w.cache
    ensures CacheGate(cfg, w, useCache) ==> r.1.cache.Some? && r.1.cache.value.ttl == w.cache.value.ttl
    ensures var hit := CachedReply(cfg, w, agent, prompt, context, useCache);
      hit.Some? ==> r == (Success(Reply(hit.value.text, 0, 0)), w)
    ensures var hit := CachedReply(cfg, w, agent, prompt, context, useCache);
      var a := CallApiWithRetry(service, RequestFor(cfg, agent, prompt, context), w.calls, cfg.maxRetries, cfg.retryDelay);
      hit.None? ==> r.0 == a.result && r.1.calls == w.calls + a.calls && r.1.sleeps == w.sleeps + a.sleeps
    ensures CacheGate(cfg, w, useCache) && r.0.Success? ==>
      CacheStore.Get(r.1.cache.value, InvocationKey(agent.name, prompt, context), w.now).1.Some?
    ensures CacheGate(cfg, w, useCache) && CachedReply(cfg, w, agent, prompt, context, useCache).None? && r.0.Success? ==>
      CacheStore.Get(r.1.cache.value, InvocationKey(agent.name, prompt, context), w.now).1 == Some(r.0.value)
    ensures CacheGate(cfg, w, useCache) && CachedReply(cfg, w, agent, prompt, context, useCache).None? ==>
      var key := InvocationKey(agent.name, prompt, context);
      var read := CacheStore.Get(w.cache.value, key, w.now).0;
      r.1.cache == Some(if r.0.Success? then CacheStore.Set(read, r.0.value, key, w.now) else read)
  {
    var gate := CacheGate(cfg, w, useCache);
    var key := InvocationKey(agent.name, prompt, context);
    var looked := if gate then CacheStore.Get(w.cache.value, key, w.now) else (CacheStore.Cache(map[], 0), None);
    if gate && looked.1.Some? then
      (Success(Reply(looked.1.value.text, 0, 0)), w)
    else
      var w1 := if gate then w.(cache := Some(looked.0)) else w;
      var a := CallApiWithRetry(service, RequestFor(cfg, agent, prompt, context), w.calls, cfg.maxRetries, cfg.retryDelay);
      var w2 := w1.(calls := w.calls + a.calls, sleeps := w.sleeps + a.sleeps);
      match a.result
      case Failure(e) => (Failure(e), w2)
      case Success(reply) =>
        if gate then
          var c := CacheStore.Set(w1.cache.value, reply, key, w.now);
          CacheStore.SetThenGet(w1.cache.value, reply, key, w.now, w.now);
          (Success(reply), w2.(cache := Some(c)))
        else (Success(reply), w2)
  }

  /** `invoke` touches only its own cache entry: a read under any other key,
      at any time, answers after the invocation as it did before. */
  lemma InvokeKeepsOtherReads(cfg: Settings.Config, service: Service, agent: Agent, w: World,
                              prompt: string, context: string, useCache: bool, other: CacheStore.CallKey, later: int)
    requires w.cache.Some?
    requires CacheStore.FingerprintOf(other) != CacheStore.FingerprintOf(InvocationKey(agent.name, prompt, context))
    ensures var w1 := Invoke(cfg, service, agent, w, prompt, context, useCache).1;
      w1.cache.Some? && CacheStore.Get(w1.cache.value, other, later).1 == CacheStore.Get(w.cache.value, other, later).1
  {
    var key := InvocationKey(agent.name, prompt, context);
    var r := Invoke(cfg, service, agent, w, prompt, context, useCache);
    if CacheGate(cfg, w, useCache) && CachedReply(cfg, w, agent, prompt, context, useCache).None? {
      var read := CacheStore.Get(w.cache.value, key, w.now).0;
      CacheStore.GetKeepsOtherReads(w.cache.value, key, other, w.now, later);
      if r.0.Success? {
        CacheStore.SetKeepsOtherReads(read, r.0.value, key, other, w.now, later);
      }
    }
  }

  /** `invoke` does not read the parallel-execution flag. */
  lemma InvokeIgnoresParallelFlag(cfg: Settings.Config, b: bool, service: Service, agent: Agent, w: World,
                                  prompt: string, context: string, useCache: bool)
    ensures Invoke(cfg.(parallelExecution := b), service, agent, w, prompt, context, useCache)
         == Invoke(cfg, service, agent, w, prompt, context, useCache)
  {
    var c := cfg.(parallelExecution := b);
    assert CacheGate(c, w, useCache) == CacheGate(cfg, w, useCache);
    assert RequestFor(c, agent, prompt, context) == RequestFor(cfg, agent, prompt, context);
    assert CallApiWithRetry(service, RequestFor(c, agent, prompt, context), w.calls, c.maxRetries, c.retryDelay)
        == CallApiWithRetry(service, RequestFor(cfg, agent, prompt, context), w.calls, cfg.maxRetries, cfg.retryDelay);
  }

  /** A second identical invocation at the same instant, after a successful
      one with the cache taking part, is answered from the cache: the first
      answer's text with zero tokens, no call made, nothing else changed. */
  lemma CacheHitIsFree(cfg: Settings.Config, service: Service, agent: Agent, w: World, prompt: string, context: string)
    requires CacheGate(cfg, w, true)
    requires Invoke(cfg, service, agent, w, prompt, context, true).0.Success?
    ensures var (r1, w1) := Invoke(cfg, service, agent, w, prompt, context, true);
      Invoke(cfg, service, agent, w1, prompt, context, true) == (Success(Reply(r1.value.text, 0, 0)), w1)
  {
    var (r1, w1) := Invoke(cfg, service, agent, w, prompt, context, true);
    var key := InvocationKey(agent.name, prompt, context);
    var hit := CacheStore.Get(w1.cache.value, key, w1.now);
    assert hit.1.Some?;
    assert hit.0 == w1.cache.value;
    if CachedReply(cfg, w, agent, prompt, context, true).Some? {
      assert w1 == w;
    }
  }

  // ---------------------------------------------------------------------------
  // Recovering JSON from response text

  /** `str.find`: the first index of `c`, or -1. */
  function Find(s: string, c: char): (r: int)
    ensures -1 <= r < |s|
    ensures r == -1 <==> c !in s
    ensures r >= 0 ==> s[r] == c && c !in s[..r]
  {
    if |s| == 0 then -1
    else if s[0] == c then 0
    else
      var r := Find(s[1..], c);
      assert s == [s[0]] + s[1..];
      if r == -1 then -1
      else
        assert s[..r + 1] == [s[0]] + s[1..][..r];
        r + 1
  }

  /** `str.rfind`: the last index of `c`, or -1. */
  function RFind(s: string, c: char): (r: int)
    ensures -1 <= r < |s|
    ensures r == -1 <==> c !in s
    ensures r >= 0 ==> s[r] == c && c !in s[r + 1..]
  {
    if |s| == 0 then -1
    else if s[|s| - 1] == c then |s| - 1
    else
      var init := s[..|s| - 1];
      var r := RFind(init, c);
      LastSplit(s, r + 1);
      r
  }

  /** Splitting off the last character of a string. */
  lemma LastSplit(s: string, from: int)
    requires |s| > 0 && 0 <= from <= |s| - 1
    ensures s[from..] == s[..|s| - 1][from..] + [s[|s| - 1]]
    ensures forall x :: x in s <==> x in s[..|s| - 1] || x == s[|s| - 1]
  {
    assert s == s[..|s| - 1] + [s[|s| - 1]];
  }

  /** The span from the first `open` to the last `close`, tried only when the
      first `open` comes before the last `close`. */
  function Span(text: string, open: char, close: char): (r: Option<string>)
    ensures open != close ==>
      (r.Some? <==> exists i, j :: 0 <= i < j < |text| && text[i] == open && text[j] == close)
    ensures r.Some? ==> |r.value| >= 1 && r.value[0] == open && r.value[|r.value| - 1] == close
    ensures r.Some? ==> 0 <= Find(text, open) <= RFind(text, close)
    ensures r.Some? ==> r.value == text[Find(text, open)..RFind(text, close) + 1]
  {
    var start := Find(text, open);
    var end := RFind(text, close) + 1;
    SpanBounds(text, open, close);
    if start != -1 && end > start then Some(text[start..end]) else None
  }

  /** The first `open` comes before the last `close` exactly when some `open`
      comes before some `close`. */
  lemma SpanBounds(text: string, open: char, close: char)
    ensures open != close ==>
      ((Find(text, open) != -1 && RFind(text, close) + 1 > Find(text, open))
       <==> exists i, j :: 0 <= i < j < |text| && text[i] == open && text[j] == close)
  {
    var start := Find(text, open);
    var last := RFind(text, close);
    if exists i, j :: 0 <= i < j < |text| && text[i] == open && text[j] == close {
      var i, j :| 0 <= i < j < |text| && text[i] == open && text[j] == close;
      FirstLastAround(text, open, close, i, j);
    }
    if open != close && start != -1 && last + 1 > start {
      assert text[start] == open && text[last] == close;
      assert start < last;
    }
  }

  /** Any `open` before a `close` lies between the first `open` and the last
      `close`. */
  lemma FirstLastAround(text: string, open: char, close: char, i: nat, j: nat)
    requires i < j < |text| && text[i] == open && text[j] == close
    ensures Find(text, open) != -1 && Find(text, open) <= i && j <= RFind(text, close)
  {
    var start := Find(text, open);
    var last := RFind(text, close);
    assert text[i] in text && text[j] in text;
    assert forall k :: 0 <= k < start ==> text[..start][k] == text[k];
    assert forall k :: 0 <= last && last < k < |text| ==> text[last + 1..][k - last - 1] == text[k];
  }

  /** The texts `extract_json` hands to the decoder, in order: the whole text,
      the brace span when there is one, the bracket span when there is one. */
  function Candidates(text: string): (cs: seq<string>)
    ensures 1 <= |cs| <= 3 && cs[0] == text
  {
    var obj := Span(text, '{', '}');
    var arr := Span(text, '[', ']');
    [text] + (if obj.Some? then [obj.value] else []) + (if arr.Some? then [arr.value] else [])
  }

  /** The first candidate the decoder accepts, decoded. */
  function FirstParsed(cs: seq<string>, parse: Parser): (r: Option<Json>)
    ensures r.None? <==> forall i :: 0 <= i < |cs| ==> parse(cs[i]).None?
    ensures r.Some? ==> exists i :: 0 <= i < |cs| && parse(cs[i]) == r && forall j :: 0 <= j < i ==> parse(cs[j]).None?
  {
    if |cs| == 0 then None
    else if parse(cs[0]).Some? then parse(cs[0])
    else
      var r := FirstParsed(cs[1..], parse);
      assert forall i :: 1 <= i < |cs| ==> cs[i] == cs[1..][i - 1];
      if r.Some? then
        var i :| 0 <= i < |cs[1..]| && parse(cs[1..][i]) == r && forall j :: 0 <= j < i ==> parse(cs[1..][j]).None?;
        assert parse(cs[i + 1]) == r;
        r
      else r
  }

  /** `extract_json`: the whole text, then the brace span, then the bracket
      span, each only when present; the first that decodes is the answer. A
      decoded JSON `null` is Python's `None`, so it reads as no answer, and so
      does a text none of whose candidates decodes. */
  function ExtractJson(text: string, parse: Parser): (r: Option<Json>)
    ensures parse(text).Some? && parse(text) != Some(JNull) ==> r == parse(text)
    ensures parse(text) == Some(JNull) ==> r.None?
    ensures r != Some(JNull)
  {
    var direct := parse(text);
    var first :=
      if direct.Some? then direct
      else
        var obj := Span(text, '{', '}');
        if obj.Some? && parse(obj.value).Some? then parse(obj.value)
        else
          var arr := Span(text, '[', ']');
          if arr.Some? && parse(arr.value).Some? then parse(arr.value)
          else None;
    if first == Some(JNull) then None else first
  }

  /** `extract_json` answers with the first candidate that decodes, and with
      `None` exactly when none does or the first that does is `null`. */
  lemma ExtractJsonFirstCandidate(text: string, parse: Parser)
    ensures FirstParsed(Candidates(text), parse) != Some(JNull) ==>
      ExtractJson(text, parse) == FirstParsed(Candidates(text), parse)
    ensures ExtractJson(text, parse).None? <==>
      (forall c :: c in Candidates(text) ==> parse(c).None?) || FirstParsed(Candidates(text), parse) == Some(JNull)
  {
    var obj := Span(text, '{', '}');
    var arr := Span(text, '[', ']');
    var cs := Candidates(text);
    if obj.Some? {
      assert cs[1] == obj.value;
      assert cs[1..][0] == obj.value;
    }
    if arr.Some? {
      assert cs[|cs| - 1] == arr.value;
    }
  }
}

=== FILE: cache.dfy ===
/** The response cache: a store of timestamped entries keyed by a fingerprint
    of the call arguments, with a time-to-live after which an entry counts as
    absent. One file per fingerprint in the program; here a map from
    fingerprint to entry, with the clock passed in as `now` (seconds). */
module CacheStore {
  import opened Common

  /** The arguments of a cache call: positional arguments, and keyword
      arguments in the order the caller wrote them. */
  datatype CallKey = CallKey(args: seq<string>, kwargs: seq<(string, string)>)

  /** A fingerprint is the canonical form of a call key: the same positional
      arguments and the keyword arguments sorted by name, which is what the
      program serialises (with sorted keys) and hashes. The hash is taken to
      be collision-free, so the canonical form itself serves as the key. */
  type Fingerprint = CallKey

  const DefaultTtlHours: nat := 24
  const SecondsPerHour: nat := 3600

  /** A stored file: a readable entry, or one whose content or timestamp
      cannot be decoded. */
  datatype Entry<V> = Fresh(timestamp: int, value: V) | Corrupt

  datatype Cache<V> = Cache(store: map<Fingerprint, Entry<V>>, ttl: nat)

  /** A new cache over the files already on disk, with the default lifetime. */
  function NewCache<V>(store: map<Fingerprint, Entry<V>>): (c: Cache<V>)
    ensures c.store == store && c.ttl == 24 * 3600
  {
    Cache(store, DefaultTtlHours * SecondsPerHour)
  }

  // ---------------------------------------------------------------------------
  // Canonical keys

  /** Strict code-point order on strings, the order of sorted JSON keys. */
  predicate Below(a: string, b: string)
  {
    if |a| == 0 then |b| > 0
    else if |b| == 0 then false
    else if a[0] != b[0] then a[0] < b[0]
    else Below(a[1..], b[1..])
  }

  lemma BelowIrreflexive(a: string)
    ensures !Below(a, a)
  {
    if |a| > 0 {
      BelowIrreflexive(a[1..]);
    }
  }

  lemma BelowTransitive(a: string, b: string, c: string)
    requires Below(a, b) && Below(b, c)
    ensures Below(a, c)
  {
    if |a| > 0 && |b| > 0 && |c| > 0 && a[0] == b[0] == c[0] {
      BelowTransitive(a[1..], b[1..], c[1..]);
    }
  }

  lemma BelowTotal(a: string, b: string)
    ensures a == b || Below(a, b) || Below(b, a)
  {
    if |a| > 0 && |b| > 0 && a[0] == b[0] {
      BelowTotal(a[1..], b[1..]);
      if a[1..] == b[1..] {
        assert a == [a[0]] + a[1..] && b == [b[0]] + b[1..];
      }
    }
  }

  ghost predicate DistinctNames(kw: seq<(string, string)>)
  {
    forall i, j :: 0 <= i < j < |kw| ==> kw[i].0 != kw[j].0
  }

  ghost predicate SortedByName(kw: seq<(string, string)>)
  {
    forall i, j :: 0 <= i < j < |kw| ==> Below(kw[i].0, kw[j].0)
  }

  function InsertByName(p: (string, string), kw: seq<(string, string)>): (r: seq<(string, string)>)
    ensures multiset(r) == multiset(kw) + multiset{p}
  {
    if |kw| == 0 then [p]
    else if Below(p.0, kw[0].0) then [p] + kw
    else
      assert kw == [kw[0]] + kw[1..];
      [kw[0]] + InsertByName(p, kw[1..])
  }

  function SortByName(kw: seq<(string, string)>): (r: seq<(string, string)>)
    ensures multiset(r) == multiset(kw)
  {
    if |kw| == 0 then []
    else
      assert kw == [kw[0]] + kw[1..];
      InsertByName(kw[0], SortByName(kw[1..]))
  }

  lemma {:induction false} InsertByNameSorted(p: (string, string), kw: seq<(string, string)>)
    requires SortedByName(kw)
    requires forall q :: q in kw ==> q.0 != p.0
    ensures SortedByName(InsertByName(p, kw))
  {
    if |kw| == 0 {
    } else if Below(p.0, kw[0].0) {
      var r := [p] + kw;
      forall i, j | 0 <= i < j < |r|
        ensures Below(r[i].0, r[j].0)
      {
        if i == 0 && j > 1 {
          BelowTransitive(p.0, kw[0].0, kw[j - 1].0);
        }
      }
    } else {
      BelowTotal(p.0, kw[0].0);
      assert kw[0] in kw;
      var rest := InsertByName(p, kw[1..]);
      assert forall q :: q in kw[1..] ==> q in kw;
      InsertByNameSorted(p, kw[1..]);
      var r := [kw[0]] + rest;
      forall i, j | 0 <= i < j < |r|
        ensures Below(r[i].0, r[j].0)
      {
        if i == 0 {
          var q := rest[j - 1];
          assert q in multiset(rest);
          assert q == p || q in multiset(kw[1..]);
          if q != p {
            var k :| 0 <= k < |kw[1..]| && kw[1..][k] == q;
            assert kw[k + 1] == q;
          }
        }
      }
    }
  }

  lemma {:induction false} SortByNameSorted(kw: seq<(string, string)>)
    requires DistinctNames(kw)
    ensures SortedByName(SortByName(kw))
  {
    if |kw| > 0 {
      SortByNameSorted(kw[1..]);
      var rest := SortByName(kw[1..]);
      forall q | q in rest
        ensures q.0 != kw[0].0
      {
        assert q in multiset(kw[1..]);
        var k :| 0 <= k < |kw[1..]| && kw[1..][k] == q;
        assert kw[k + 1] == q;
      }
      InsertByNameSorted(kw[0], rest);
    }
  }

  lemma MultisetTail<T>(s: seq<T>)
    requires |s| > 0
    ensures multiset(s[1..]) == multiset(s) - multiset{s[0]}
  {
    assert s == [s[0]] + s[1..];
  }

  /** Two name-sorted keyword lists with the same items start with the same item. */
  lemma SortedHeadsEqual(a: seq<(string, string)>, b: seq<(string, string)>)
    requires SortedByName(a) && SortedByName(b)
    requires multiset(a) == multiset(b) && |a| > 0
    ensures |b| > 0 && a[0] == b[0]
  {
    assert a[0] in multiset(b);
    var k :| 0 <= k < |b| && b[k] == a[0];
    assert b[0] in multiset(a);
    var m :| 0 <= m < |a| && a[m] == b[0];
    if a[0] != b[0] {
      assert Below(b[0].0, a[0].0) && Below(a[0].0, b[0].0);
      BelowTransitive(a[0].0, b[0].0, a[0].0);
      BelowIrreflexive(a[0].0);
    }
  }

  /** Two name-sorted keyword lists with the same items are the same list. */
  lemma {:induction false} SortedUnique(a: seq<(string, string)>, b: seq<(string, string)>)
    requires SortedByName(a) && SortedByName(b)
    requires multiset(a) == multiset(b)
    ensures a == b
  {
    if |a| == 0 {
      assert |b| == |multiset(b)| == 0;
    } else {
      SortedHeadsEqual(a, b);
      MultisetTail(a);
      MultisetTail(b);
      SortedUnique(a[1..], b[1..]);
      assert a == [a[0]] + a[1..] && b == [b[0]] + b[1..];
    }
  }

  /** The canonical key of a call: keyword arguments sorted by name. */
  function FingerprintOf(k: CallKey): (f: Fingerprint)
    ensures f.args == k.args
    ensures multiset(f.kwargs) == multiset(k.kwargs)
  {
    CallKey(k.args, SortByName(k.kwargs))
  }

  /** Two calls share a fingerprint exactly when they pass the same positional
      arguments and the same keyword arguments, in whatever keyword order. */
  lemma FingerprintIgnoresKeywordOrder(k1: CallKey, k2: CallKey)
    requires DistinctNames(k1.kwargs) && DistinctNames(k2.kwargs)
    ensures FingerprintOf(k1) == FingerprintOf(k2) <==>
      k1.args == k2.args && multiset(k1.kwargs) == multiset(k2.kwargs)
  {
    if k1.args == k2.args && multiset(k1.kwargs) == multiset(k2.kwargs) {
      SortByNameSorted(k1.kwargs);
      SortByNameSorted(k2.kwargs);
      SortedUnique(SortByName(k1.kwargs), SortByName(k2.kwargs));
    }
  }

  // ---------------------------------------------------------------------------
  // Reads and writes

  /** An entry is stale once strictly more than `ttl` seconds have passed since
      it was written; an entry exactly `ttl` seconds old is still served. */
  predicate Expired(timestamp: int, now: int, ttl: nat)
  {
    now - timestamp > ttl
  }

  /** A readable entry that has not expired. */
  predicate Live<V>(e: Entry<V>, now: int, ttl: nat)
  {
    e.Fresh? && !Expired(e.timestamp, now, ttl)
  }

  /** `get`: the stored value when its entry is live; a stale entry is deleted,
      a corrupt one is left in place, and both read as a miss. */
  function Get<V>(c: Cache<V>, k: CallKey, now: int): (r: (Cache<V>, Option<V>))
    ensures r.0.ttl == c.ttl
    ensures var f := FingerprintOf(k);
      && (r.1.Some? <==> f in c.store && Live(c.store[f], now, c.ttl))
      && (r.1.Some? ==> r.1.value == c.store[f].value)
    ensures var f := FingerprintOf(k);
      r.0.store == if f in c.store && c.store[f].Fresh? && Expired(c.store[f].timestamp, now, c.ttl)
                   then c.store - {f} else c.store
  {
    var f := FingerprintOf(k);
    if f !in c.store then (c, None)
    else match c.store[f]
      case Corrupt => (c, None)
      case Fresh(ts, v) =>
        if Expired(ts, now, c.ttl) then (Cache(c.store - {f}, c.ttl), None)
        else (c, Some(v))
  }

  /** `set`: the value is stored under the call's fingerprint with the current
      time, replacing whatever was there; every other entry is untouched. */
  function Set<V>(c: Cache<V>, value: V, k: CallKey, now: int): (r: Cache<V>)
    ensures r.ttl == c.ttl
    ensures r.store.Keys == c.store.Keys + {FingerprintOf(k)}
    ensures r.store[FingerprintOf(k)] == Fresh(now, value)
    ensures forall f :: f in c.store && f != FingerprintOf(k) ==> r.store[f] == c.store[f]
  {
    Cache(c.store[FingerprintOf(k) := Fresh(now, value)], c.ttl)
  }

  /** A value written is read back unchanged while it is at most `ttl` seconds old. */
  lemma SetThenGet<V>(c: Cache<V>, value: V, k: CallKey, now: int, later: int)
    requires later - now <= c.ttl
    ensures Get(Set(c, value, k, now), k, later) == (Set(c, value, k, now), Some(value))
  {
  }

  /** Once more than `ttl` seconds have passed, the same read misses and deletes
      the entry, leaving the rest of the store as it was before the write. */
  lemma SetThenGetStale<V>(c: Cache<V>, value: V, k: CallKey, now: int, later: int)
    requires later - now > c.ttl
    ensures Get(Set(c, value, k, now), k, later).1 == None
    ensures Get(Set(c, value, k, now), k, later).0.store == c.store - {FingerprintOf(k)}
  {
  }

  /** A write under one fingerprint does not change what a read under another returns. */
  lemma SetKeepsOtherReads<V>(c: Cache<V>, value: V, k: CallKey, other: CallKey, now: int, later: int)
    requires FingerprintOf(other) != FingerprintOf(k)
    ensures Get(Set(c, value, k, now), other, later).1 == Get(c, other, later).1
  {
  }

  /** A read under one key, even one that deletes a stale entry, leaves the
      reads under every other key unchanged. */
  lemma GetKeepsOtherReads<V>(c: Cache<V>, k: CallKey, other: CallKey, now: int, later: int)
    requires FingerprintOf(other) != FingerprintOf(k)
    ensures Get(Get(c, k, now).0, other, later).1 == Get(c, other, later).1
  {
  }

  /** `clear`: every entry is removed and the count is how many there were. */
  method Clear<V>(c: Cache<V>) returns (r: Cache<V>, count: nat)
    ensures r.ttl == c.ttl
    ensures r.store == map[]
    ensures count == |c.store|
  {
    var store := c.store;
    count := 0;
    while store != map[]
      invariant store.Keys <= c.store.Keys
      invariant count + |store| == |c.store|
      decreases |store|
    {
      var f :| f in store;
      assert (store - {f}).Keys == store.Keys - {f};
      store := store - {f};
      count := count + 1;
    }
    r := Cache(store, c.ttl);
  }

  /** `clear_expired`: removes exactly the stale and the corrupt entries, leaves
      every live entry as it was, and counts what it removed. */
  method ClearExpired<V>(c: Cache<V>, now: int) returns (r: Cache<V>, count: nat)
    ensures r.ttl == c.ttl
    ensures r.store.Keys == set f | f in c.store && Live(c.store[f], now, c.ttl)
    ensures forall f :: f in r.store ==> r.store[f] == c.store[f]
    ensures count == |c.store| - |r.store|
  {
    var store := c.store;
    var pending := c.store.Keys;
    count := 0;
    while pending != {}
      invariant pending <= store.Keys <= c.store.Keys
      invariant forall f :: f in store ==> store[f] == c.store[f]
      invariant forall f :: f in c.store && f !in pending ==> (f in store <==> Live(c.store[f], now, c.ttl))
      invariant count + |store| == |c.store|
      decreases pending
    {
      var f :| f in pending;
      if !Live(store[f], now, c.ttl) {
        assert (store - {f}).Keys == store.Keys - {f};
        store := store - {f};
        count := count + 1;
      }
      pending := pending - {f};
    }
    r := Cache(store, c.ttl);
  }
}

=== FILE: common.dfy ===
/** Small shared vocabulary: optional values, results, string joining and
    association-list lookup (the model's stand-in for a Python dict, which
    keeps its keys in insertion order). */
module Common {

  datatype Option<+T> = None | Some(value: T) {

    /** The wrapped value, or `default` when there is none (Python's `x or default`
        for a lookup that may miss). */
    function GetOr(default: T): T {
      match this
      case Some(v) => v
      case None => default
    }
  }

  datatype Result<+R, +E> = Success(value: R) | Failure(error: E)

  /** Python's `sep.join(parts)`. */
  function Join(parts: seq<string>, sep: string): (r: string)
    ensures |parts| == 0 ==> r == ""
    ensures |parts| >= 1 ==> |r| >= |parts[0]| && r[..|parts[0]|] == parts[0]
    ensures |parts| >= 2 ==> |r| >= |parts[0]| + |sep| + |parts[1]|
  {
    if |parts| == 0 then ""
    else if |parts| == 1 then parts[0]
    else parts[0] + sep + Join(parts[1..], sep)
  }

  /** Joining one more part appends the separator and that part. */
  lemma {:induction false} JoinSnoc(parts: seq<string>, last: string, sep: string)
    requires |parts| >= 1
    ensures Join(parts + [last], sep) == Join(parts, sep) + sep + last
  {
    if |parts| == 1 {
      assert parts + [last] == [parts[0], last];
      assert Join([last], sep) == last;
    } else {
      assert (parts + [last])[1..] == parts[1..] + [last];
      JoinSnoc(parts[1..], last, sep);
    }
  }

  /** Joining a part in front of a non-empty list puts the separator after it. */
  lemma JoinCons(first: string, parts: seq<string>, sep: string)
    requires |parts| >= 1
    ensures Join([first] + parts, sep) == first + sep + Join(parts, sep)
  {
    assert ([first] + parts)[1..] == parts;
  }

  /** Python's `d.get(key)` on a dict whose items are `pairs`, in insertion order. */
  function Lookup<V>(pairs: seq<(string, V)>, key: string): Option<V> {
    if |pairs| == 0 then None
    else if pairs[0].0 == key then Some(pairs[0].1)
    else Lookup(pairs[1..], key)
  }

  /** A lookup misses exactly when no pair carries the key, and a hit is the
      value of a pair that carries it. */
  lemma {:induction false} LookupSpec<V>(pairs: seq<(string, V)>, key: string)
    ensures Lookup(pairs, key).None? <==> forall i :: 0 <= i < |pairs| ==> pairs[i].0 != key
    ensures Lookup(pairs, key).Some? ==> exists i :: 0 <= i < |pairs| && pairs[i] == (key, Lookup(pairs, key).value)
  {
    if |pairs| > 0 && pairs[0].0 != key {
      LookupSpec(pairs[1..], key);
      var r := Lookup(pairs[1..], key);
      assert r.Some? ==> exists i :: 0 <= i < |pairs[1..]| && pairs[1..][i] == (key, r.value);
      assert forall i :: 1 <= i < |pairs| ==> pairs[i] == pairs[1..][i - 1];
    }
  }
}

/** The values a JSON decoder produces. Numbers are integers only. */
module JsonValue {
  import opened Common

  datatype Json =
    | JNull
    | JBool(b: bool)
    | JNum(n: int)
    | JStr(s: string)
    | JArr(items: seq<Json>)
    | JObj(fields: seq<(string, Json)>)
  {
    /** Python truthiness of the decoded value. */
    predicate Truthy() {
      match this
      case JNull => false
      case JBool(b) => b
      case JNum(n) => n != 0
      case JStr(s) => s != ""
      case JArr(items) => items != []
      case JObj(fields) => fields != []
    }
  }

  /** The values Python's `len()` accepts: lists, dicts and strings. */
  predicate Sized(j: Json) {
    j.JArr? || j.JObj? || j.JStr?
  }

  /** What a Python `for x in value` loop visits for a decoded value: the items
      of a list, the keys of a dict, the characters of a string; any other
      value is not iterable (a `TypeError`). */
  function Iterate(j: Json): (r: Option<seq<Json>>)
    ensures j.JArr? ==> r == Some(j.items)
    ensures r.Some? ==> (|r.value| == 0 <==> !j.Truthy())
    ensures r.None? <==> !Sized(j)
  {
    match j
    case JArr(items) => Some(items)
    case JObj(fields) => Some(seq(|fields|, i requires 0 <= i < |fields| => JStr(fields[i].0)))
    case JStr(s) => Some(seq(|s|, i requires 0 <= i < |s| => JStr([s[i]])))
    case _ => None
  }
}

=== FILE: company_analysis_agent.dfy ===
/** The per-company analyzer stage: builds a context from the company's
    document descriptor, asks for mention counts, AI capital spending and a
    leadership quote, and decodes the answer with fixed defaults. */
module CompanyAnalysisAgent {
  import opened Common
  import opened JsonValue
  import Settings
  import opened BaseAgent

  /** The outcome of analysing one company. The two documents analysed are
      the descriptor's `tenk_url` and `earnings_transcript_url` values. */
  datatype CompanyAnalysis = CompanyAnalysis(
    company: string,
    genAiMentions: int,
    mlMentions: int,
    capexAi: string,
    cfoQuote: string,
    keyInsights: string,
    documentsAnalyzed: seq<Json>)

  /** The analyzer's name, which is also its cache identity and ledger key. */
  function AnalystName(company: string): (n: string)
    ensures |n| == |company| + 7 && n[..|company|] == company && n[|company|..] == "Analyst"
  {
    company + "Analyst"
  }

  /** The analyzer agent for a company; the role text is reduced to its
      opening sentence. */
  function Analyst(company: string): (a: Agent)
    ensures a.name == AnalystName(company) && a.agentType == "sub"
  {
    Agent(AnalystName(company),
      "You are an expert financial analyst specializing in " + company + ".",
      "sub")
  }

  // ---------------------------------------------------------------------------
  // Context

  /** Python's `str()` of a decoded value inside an f-string: a string is
      itself, anything else is rendered by `show`. */
  function Display(v: Json, show: Json -> string): string {
    if v.JStr? then v.s else show(v)
  }

  /** A descriptor value is listed as a source when it is truthy and not `N/A`. */
  predicate Listed(v: Json) {
    v.Truthy() && v != JStr("N/A")
  }

  function SourceLine(key: string, v: Json, show: Json -> string): string {
    "  - " + key + ": " + Display(v, show)
  }

  /** One line per listed descriptor entry, in the descriptor's order. */
  function SourceLines(urls: seq<(string, Json)>, show: Json -> string): (ls: seq<string>)
    ensures |ls| <= |urls|
    ensures |ls| == 0 <==> forall i :: 0 <= i < |urls| ==> !Listed(urls[i].1)
    ensures forall i :: 0 <= i < |urls| && Listed(urls[i].1) ==> SourceLine(urls[i].0, urls[i].1, show) in ls
  {
    if |urls| == 0 then []
    else
      var rest := SourceLines(urls[1..], show);
      assert forall i :: 1 <= i < |urls| ==> urls[i] == urls[1..][i - 1];
      if Listed(urls[0].1) then [SourceLine(urls[0].0, urls[0].1, show)] + rest else rest
  }

  /** The positions, from `from` on, of the listed descriptor entries, in
      increasing order. */
  function ListedPositions(urls: seq<(string, Json)>, from: nat): (ps: seq<nat>)
    requires from <= |urls|
    ensures forall k :: 0 <= k < |ps| ==> from <= ps[k] < |urls| && Listed(urls[ps[k]].1)
    ensures forall k, m :: 0 <= k < m < |ps| ==> ps[k] < ps[m]
    ensures forall i :: from <= i < |urls| && Listed(urls[i].1) ==> i in ps
    decreases |urls| - from
  {
    if from == |urls| then []
    else if Listed(urls[from].1) then [from] + ListedPositions(urls, from + 1)
    else ListedPositions(urls, from + 1)
  }

  lemma {:induction false} SourceLinesFrom(urls: seq<(string, Json)>, show: Json -> string, from: nat)
    requires from <= |urls|
    ensures var ls, ps := SourceLines(urls[from..], show), ListedPositions(urls, from);
      && |ls| == |ps|
      && forall k :: 0 <= k < |ls| ==> ls[k] == SourceLine(urls[ps[k]].0, urls[ps[k]].1, show)
    decreases |urls| - from
  {
    if from < |urls| {
      var tail := urls[from..];
      assert tail[0] == urls[from] && tail[1..] == urls[from + 1..];
      SourceLinesFrom(urls, show, from + 1);
      var rest, qs := SourceLines(urls[from + 1..], show), ListedPositions(urls, from + 1);
      if Listed(urls[from].1) {
        var ls, ps := SourceLines(tail, show), ListedPositions(urls, from);
        assert ls == [SourceLine(urls[from].0, urls[from].1, show)] + rest;
        assert ps == [from] + qs;
        forall k | 0 <= k < |ls| ensures ls[k] == SourceLine(urls[ps[k]].0, urls[ps[k]].1, show) {
          if k > 0 {
            assert ls[k] == rest[k - 1] && ps[k] == qs[k - 1];
          }
        }
      } else {
        assert SourceLines(tail, show) == rest;
        assert ListedPositions(urls, from) == qs;
      }
    }
  }

  /** The source lines are exactly the listed entries' lines, in descriptor
      order: the `k`-th line renders the `k`-th listed entry, and there are as
      many lines as listed entries. */
  lemma SourceLinesFilter(urls: seq<(string, Json)>, show: Json -> string)
    ensures var ls, ps := SourceLines(urls, show), ListedPositions(urls, 0);
      && |ls| == |ps|
      && forall k :: 0 <= k < |ls| ==> ls[k] == SourceLine(urls[ps[k]].0, urls[ps[k]].1, show)
  {
    assert urls[0..] == urls;
    SourceLinesFrom(urls, show, 0);
  }

  /** The context lines of a non-empty descriptor whose source lines are
      `sources`. */
  function Headed(company: string, sources: seq<string>): seq<string> {
    ["Analyzing: " + company, "Document sources:"] + sources
  }

  function ContextLines(company: string, urls: seq<(string, Json)>, show: Json -> string): seq<string> {
    if |urls| > 0 then Headed(company, SourceLines(urls, show)) else ["Analyzing: " + company]
  }

  /** The context: `Analyzing: <company>` first, and the `Document sources:`
      heading and source lines only when the descriptor is non-empty. */
  function AnalysisContext(company: string, urls: seq<(string, Json)>, show: Json -> string): (c: string)
    ensures |c| >= 11 + |company| && c[..11 + |company|] == "Analyzing: " + company
    ensures c == "Analyzing: " + company <==> |urls| == 0
  {
    var lines := ContextLines(company, urls, show);
    assert lines[0] == "Analyzing: " + company;
    Join(lines, "\n")
  }

  /** The line that opens the context of a non-empty descriptor, before any
      source line. */
  function SourcesHeading(company: string): string {
    "Analyzing: " + company + "\n" + "Document sources:"
  }

  /** Adding an entry to a descriptor adds its source line at the end of the
      lines when it is listed, and nothing otherwise. */
  lemma {:induction false} SourceLinesSnoc(urls: seq<(string, Json)>, e: (string, Json), show: Json -> string)
    ensures SourceLines(urls + [e], show)
      == SourceLines(urls, show) + (if Listed(e.1) then [SourceLine(e.0, e.1, show)] else [])
  {
    if |urls| == 0 {
      assert urls + [e] == [e];
      assert [e][1..] == [];
    } else {
      assert (urls + [e])[0] == urls[0];
      assert (urls + [e])[1..] == urls[1..] + [e];
      SourceLinesSnoc(urls[1..], e, show);
    }
  }

  /** Joining at most one more line appends the separator and that line. */
  lemma JoinAppend(before: seq<string>, extra: seq<string>, sep: string)
    requires |before| >= 1 && |extra| <= 1
    ensures Join(before + extra, sep) == Join(before, sep) + (if |extra| == 1 then sep + extra[0] else "")
  {
    if |extra| == 1 {
      assert extra == [extra[0]];
      JoinSnoc(before, extra[0], sep);
    } else {
      assert before + extra == before;
    }
  }

  lemma HeadingLines(company: string)
    ensures Join(Headed(company, []), "\n") == SourcesHeading(company)
  {
    assert Headed(company, []) == ["Analyzing: " + company] + ["Document sources:"];
    JoinCons("Analyzing: " + company, ["Document sources:"], "\n");
  }

  /** A non-empty descriptor's context opens with the `Document sources:`
      heading, and each entry added to the descriptor appends `"\n"` and its
      source line when it is listed and leaves the context unchanged
      otherwise; so the context is the heading followed by the listed
      entries' lines, in descriptor order. */
  lemma AnalysisContextSnoc(company: string, urls: seq<(string, Json)>, e: (string, Json), show: Json -> string)
    ensures AnalysisContext(company, urls + [e], show)
      == (if |urls| == 0 then SourcesHeading(company) else AnalysisContext(company, urls, show))
         + (if Listed(e.1) then "\n" + SourceLine(e.0, e.1, show) else "")
  {
    var extra := if Listed(e.1) then [SourceLine(e.0, e.1, show)] else [];
    var before := ContextLinesSnoc(company, urls, e, show);
    JoinAppend(before, extra, "\n");
    if |urls| == 0 {
      HeadingLines(company);
    }
  }

  /** The lines behind `AnalysisContextSnoc`: the heading lines, or the old
      lines, followed by the new entry's line when it is listed. */
  lemma ContextLinesSnoc(company: string, urls: seq<(string, Json)>, e: (string, Json), show: Json -> string)
    returns (before: seq<string>)
    ensures before == (if |urls| == 0 then Headed(company, []) else ContextLines(company, urls, show))
    ensures |before| >= 1
    ensures ContextLines(company, urls + [e], show)
      == before + (if Listed(e.1) then [SourceLine(e.0, e.1, show)] else [])
  {
    var ls := SourceLines(urls, show);
    SourceLinesSnoc(urls, e, show);
    HeadedSnoc(company, ls, if Listed(e.1) then [SourceLine(e.0, e.1, show)] else []);
    before := Headed(company, ls);
    if |urls| == 0 {
      assert ls == [];
    }
  }

  lemma HeadedSnoc(company: string, ls: seq<string>, extra: seq<string>)
    ensures Headed(company, ls + extra) == Headed(company, ls) + extra
  {
  }

  /** A string followed by anything still starts with that string. */
  lemma PrefixKept(x: string, y: string, z: string)
    requires |z| >= |y| && z[..|y|] == y
    ensures |x + z| >= |x + y| && (x + z)[..|x + y|] == x + y
  {
  }

  /** A join of two or more parts starts with the first two and the
      separator between them. */
  lemma JoinOpens(a: string, d: string, ls: seq<string>, sep: string)
    ensures |Join([a, d] + ls, sep)| >= |a + sep + d|
    ensures Join([a, d] + ls, sep)[..|a + sep + d|] == a + sep + d
  {
    var rest := [d] + ls;
    assert [a, d] + ls == [a] + rest;
    JoinCons(a, rest, sep);
    assert rest[0] == d;
    PrefixKept(a + sep, d, Join(rest, sep));
  }

  /** A non-empty descriptor's context starts with the `Document sources:`
      heading. */
  lemma AnalysisContextHeading(company: string, urls: seq<(string, Json)>, show: Json -> string)
    requires |urls| > 0
    ensures var c, h := AnalysisContext(company, urls, show), SourcesHeading(company);
      |c| >= |h| && c[..|h|] == h
  {
    var ls := SourceLines(urls, show);
    JoinOpens("Analyzing: " + company, "Document sources:", ls, "\n");
    assert AnalysisContext(company, urls, show) == Join(Headed(company, ls), "\n");
  }

  // ---------------------------------------------------------------------------
  // Prompt

  /** Characters of supplied document text that reach the prompt. */
  const MaxContentChars := 30000

  /** The part of the supplied document text the prompt quotes: its first
      30000 characters. */
  function Excerpt(content: string): (e: string)
    ensures |e| <= MaxContentChars
    ensures |e| == if |content| <= MaxContentChars then |content| else MaxContentChars
    ensures e == content[..|e|]
  {
    if |content| <= MaxContentChars then content else content[..MaxContentChars]
  }

  function ContentPromptHead(company: string): string {
    "Analyze the following document content for " + company + ":\n\n"
  }

  const ContentPromptTail := "\n\nCount Generative AI and Machine Learning mentions, AI CapEx and one CFO/CEO quote. Output as JSON."

  function KnowledgePrompt(company: string): string {
    "Based on your knowledge of " + company + "'s recent public filings and statements: "
      + "estimate Generative AI and Machine Learning mentions, AI CapEx and one CFO/CEO quote. Output as JSON."
  }

  /** The request text: quotes the document excerpt when non-empty document
      text is supplied, and otherwise asks from general knowledge. */
  function AnalysisPrompt(company: string, content: Option<string>): string {
    if content.Some? && content.value != "" then
      ContentPromptHead(company) + Excerpt(content.value) + ContentPromptTail
    else KnowledgePrompt(company)
  }

  /** Supplied text reaches the prompt as its first 30000 characters, placed
      right after the heading; absent and empty text give the same prompt. */
  lemma PromptQuotesExcerpt(company: string, content: string)
    ensures content != "" ==>
      var p := AnalysisPrompt(company, Some(content));
      var at := |ContentPromptHead(company)|;
      var e := Excerpt(content);
      && |p| >= at + |e|
      && p[at..at + |e|] == content[..if |content| <= 30000 then |content| else 30000]
    ensures content == "" ==> AnalysisPrompt(company, Some(content)) == AnalysisPrompt(company, None)
  {
    if content != "" {
      var head := ContentPromptHead(company);
      var e := Excerpt(content);
      var p := head + e + ContentPromptTail;
      assert p[|head|..|head| + |e|] == e;
    }
  }

  // ---------------------------------------------------------------------------
  // Decoding

  /** The decoded fields of an answer. */
  datatype Findings = Findings(genAi: int, ml: int, capex: string, quote: string, insights: string)

  /** The data substituted when the answer cannot be decoded. */
  const ErrorData := JObj([
    ("gen_ai_mentions", JNum(0)),
    ("ml_mentions", JNum(0)),
    ("capex_ai", JStr("Error in analysis")),
    ("cfo_quote", JStr("Error in analysis")),
    ("key_insights", JStr("Analysis failed"))])

  /** An integer field with a default for a missing key; a present value
      that is not an integer is a type error. */
  function IntField(fields: seq<(string, Json)>, key: string, default: int): (r: Result<int, AgentError>)
    ensures Lookup(fields, key).None? ==> r == Success(default)
    ensures r.Success? && Lookup(fields, key).Some? ==> Lookup(fields, key) == Some(JNum(r.value))
    ensures Lookup(fields, key).Some? && !Lookup(fields, key).value.JNum? ==> r == Failure(TypeError)
  {
    var v: Option<Json> := Lookup(fields, key);
    if v.None? then Success(default)
    else if v.value.JNum? then Success(v.value.n)
    else Failure(TypeError)
  }

  /** A string field with a default for a missing key; a present value that is
      not a string is a type error. */
  function StrField(fields: seq<(string, Json)>, key: string, default: string): (r: Result<string, AgentError>)
    ensures Lookup(fields, key).None? ==> r == Success(default)
    ensures r.Success? && Lookup(fields, key).Some? ==> Lookup(fields, key) == Some(JStr(r.value))
    ensures Lookup(fields, key).Some? && !Lookup(fields, key).value.JStr? ==> r == Failure(TypeError)
  {
    var v: Option<Json> := Lookup(fields, key);
    if v.None? then Success(default)
    else if v.value.JStr? then Success(v.value.s)
    else Failure(TypeError)
  }

  /** Reads the five fields with their defaults. Anything but an object has no
      `.get` (an `AttributeError`). */
  function DecodeFindings(data: Json): (r: Result<Findings, AgentError>)
    ensures !data.JObj? ==> r == Failure(AttributeError)
  {
    match data
    case JObj(fs) =>
      var g := IntField(fs, "gen_ai_mentions", 0);
      var m := IntField(fs, "ml_mentions", 0);
      var c := StrField(fs, "capex_ai", "Not disclosed");
      var q := StrField(fs, "cfo_quote", "No quote found");
      var k := StrField(fs, "key_insights", "");
      if g.Failure? then Failure(g.error)
      else if m.Failure? then Failure(m.error)
      else if c.Failure? then Failure(c.error)
      else if q.Failure? then Failure(q.error)
      else if k.Failure? then Failure(k.error)
      else Success(Findings(g.value, m.value, c.value, q.value, k.value))
    case _ => Failure(AttributeError)
  }

  /** An object without any of the five keys decodes to the defaults: no
      mentions, `Not disclosed`, `No quote found` and no insights. */
  lemma DecodeDefaults(fs: seq<(string, Json)>)
    requires forall i :: 0 <= i < |fs| ==>
      fs[i].0 !in {"gen_ai_mentions", "ml_mentions", "capex_ai", "cfo_quote", "key_insights"}
    ensures DecodeFindings(JObj(fs)) == Success(Findings(0, 0, "Not disclosed", "No quote found", ""))
  {
    LookupSpec(fs, "gen_ai_mentions");
    LookupSpec(fs, "ml_mentions");
    LookupSpec(fs, "capex_ai");
    LookupSpec(fs, "cfo_quote");
    LookupSpec(fs, "key_insights");
  }

  /** The substituted data decodes to the fixed error analysis. */
  lemma DecodeErrorData()
    ensures DecodeFindings(ErrorData) == Success(Findings(0, 0, "Error in analysis", "Error in analysis", "Analysis failed"))
  {
    var fs := ErrorData.fields;
    assert Lookup(fs, "gen_ai_mentions") == Some(JNum(0));
    assert Lookup(fs[1..], "ml_mentions") == Some(JNum(0));
    assert Lookup(fs[1..][1..], "capex_ai") == Some(JStr("Error in analysis"));
    assert Lookup(fs[1..][1..][1..], "cfo_quote") == Some(JStr("Error in analysis"));
    assert Lookup(fs[1..][1..][1..][1..], "key_insights") == Some(JStr("Analysis failed"));
  }

  // ---------------------------------------------------------------------------
  // The stage

  /** The data an answer stands for: its decoded JSON, or the error data. */
  function AnswerData(text: string, parse: Parser): Json {
    var decoded := ExtractJson(text, parse);
    if decoded.Some? then decoded.value else ErrorData
  }

  /** How `analyze_documents` turns the invocation's answer into its result.
      A service error propagates. Otherwise the analysis names the analyzer's
      company, lists the descriptor's `tenk_url` and `earnings_transcript_url`
      (empty strings when missing), carries the findings decoded from the
      answer (the fixed error findings when it cannot be decoded), and comes
      with the answer's token counts. */
  function AnalysisFromAnswer(answer: Result<Reply, ApiError>, company: string, urls: seq<(string, Json)>, parse: Parser)
    : (r: Result<(CompanyAnalysis, nat, nat), AgentError>)
    ensures answer.Failure? ==> r == Failure(ServiceError(answer.error))
    ensures answer.Success? && ExtractJson(answer.value.text, parse).None? ==>
      r.Success? && r.value.0.genAiMentions == 0 && r.value.0.mlMentions == 0
      && r.value.0.capexAi == "Error in analysis" && r.value.0.cfoQuote == "Error in analysis"
      && r.value.0.keyInsights == "Analysis failed"
    ensures r.Success? ==>
      && answer.Success?
      && r.value.0.company == company
      && r.value.0.documentsAnalyzed == [Lookup(urls, "tenk_url").GetOr(JStr("")),
                                         Lookup(urls, "earnings_transcript_url").GetOr(JStr(""))]
      && r.value.1 == answer.value.inputTokens && r.value.2 == answer.value.outputTokens
    ensures r.Success? ==>
      DecodeFindings(AnswerData(answer.value.text, parse))
      == Success(Findings(r.value.0.genAiMentions, r.value.0.mlMentions, r.value.0.capexAi,
                          r.value.0.cfoQuote, r.value.0.keyInsights))
  {
    match answer
    case Failure(e) => Failure(ServiceError(e))
    case Success(reply) =>
      DecodeErrorData();
      match DecodeFindings(AnswerData(reply.text, parse))
      case Failure(e) => Failure(e)
      case Success(f) =>
        var docs := [Lookup(urls, "tenk_url").GetOr(JStr("")), Lookup(urls, "earnings_transcript_url").GetOr(JStr(""))];
        Success((CompanyAnalysis(company, f.genAi, f.ml, f.capex, f.quote, f.insights, docs),
                 reply.inputTokens, reply.outputTokens))
  }

  /** `analyze_documents`: a cached call under the analyzer's name, with the
      descriptor context and the prompt for the supplied document text. */
  function AnalyzeDocuments(cfg: Settings.Config, service: Service, parse: Parser, show: Json -> string,
                            w: World, company: string, urls: seq<(string, Json)>, content: Option<string>)
    : (r: (Result<(CompanyAnalysis, nat, nat), AgentError>, World))
    ensures r.1.now == w.now
    ensures !(cfg.enableCaching && w.cache.Some?) ==> r.1.cache == w.cache
    ensures w.cache.Some? ==> r.1.cache.Some?
    ensures r.0.Success? ==> r.0.value.0.company == company
    ensures var (answer, w1) := Invoke(cfg, service, Analyst(company), w, AnalysisPrompt(company, content),
                                       AnalysisContext(company, urls, show), true);
      r == (AnalysisFromAnswer(answer, company, urls, parse), w1)
  {
    var context := AnalysisContext(company, urls, show);
    var (answer, w1) := Invoke(cfg, service, Analyst(company), w, AnalysisPrompt(company, content), context, true);
    (AnalysisFromAnswer(answer, company, urls, parse), w1)
  }

  /** An answer that cannot be decoded gives the fixed error analysis, never
      a failure. */
  lemma UndecodableAnswerGivesErrorAnalysis(text: string, parse: Parser)
    requires ExtractJson(text, parse).None?
    ensures DecodeFindings(AnswerData(text, parse))
         == Success(Findings(0, 0, "Error in analysis", "Error in analysis", "Analysis failed"))
  {
    DecodeErrorData();
  }
}

=== FILE: lead_agent.dfy ===
/** The locator stage: one cached call that asks for the documents of every
    company, and a fixed descriptor per company when the answer cannot be
    decoded. */
module LeadAgent {
  import opened Common
  import opened JsonValue
  import Settings
  import opened BaseAgent

  /** The agent's role text is reduced to its opening sentence. */
  const Lead := Agent("LeadDocumentLocator",
    "You are a lead financial research agent responsible for locating company documents.",
    "lead")

  const PromptHead := "Locate the most recent 10-K filings and earnings call transcripts for these companies:\n"
  const PromptTail := "\n\nReturn as a JSON array with one object per company. Output ONLY the JSON array, nothing else."

  const EdgarSearch := "https://www.sec.gov/cgi-bin/browse-edgar?company="

  /** The request text: the company names joined by `", "` on the line after
      the heading. */
  function LocatePrompt(companies: seq<string>): (p: string)
    ensures |p| >= |PromptHead| && p[..|PromptHead|] == PromptHead
    ensures |companies| == 0 ==> p == PromptHead + PromptTail
    ensures |companies| == 1 ==> p == PromptHead + companies[0] + PromptTail
  {
    PromptHead + Join(companies, ", ") + PromptTail
  }

  /** Naming one more company inserts `", "` and that name just before the
      closing instructions, so every requested name appears, in order. */
  lemma LocatePromptSnoc(companies: seq<string>, c: string)
    requires |companies| >= 1
    ensures var p := LocatePrompt(companies);
      && |p| >= |PromptHead| + |PromptTail|
      && p[|p| - |PromptTail|..] == PromptTail
      && LocatePrompt(companies + [c]) == p[..|p| - |PromptTail|] + ", " + c + PromptTail
  {
    var j := Join(companies, ", ");
    var p := LocatePrompt(companies);
    assert p == PromptHead + j + PromptTail;
    assert p[..|p| - |PromptTail|] == PromptHead + j;
    assert p[|p| - |PromptTail|..] == PromptTail;
    JoinSnoc(companies, c, ", ");
  }

  /** The descriptor used for a company when the answer cannot be decoded. */
  function DefaultDescriptor(company: string): Json {
    JObj([
      ("company", JStr(company)),
      ("ticker", JStr("N/A")),
      ("fiscal_year_end", JStr("2024")),
      ("tenk_url", JStr(EdgarSearch + company)),
      ("investor_relations_url", JStr("N/A")),
      ("earnings_transcript_url", JStr("N/A"))])
  }

  /** A default descriptor has exactly six fields: it names its company, has
      no ticker, gives `2024` as the fiscal year end, points at the EDGAR
      company search for that name, and has no investor-relations or
      transcript address. */
  lemma DefaultDescriptorFields(company: string)
    ensures DefaultDescriptor(company).JObj?
    ensures var fs := DefaultDescriptor(company).fields;
      && |fs| == 6
      && Lookup(fs, "company") == Some(JStr(company))
      && Lookup(fs, "ticker") == Some(JStr("N/A"))
      && Lookup(fs, "fiscal_year_end") == Some(JStr("2024"))
      && Lookup(fs, "tenk_url") == Some(JStr(EdgarSearch + company))
      && Lookup(fs, "investor_relations_url") == Some(JStr("N/A"))
      && Lookup(fs, "earnings_transcript_url") == Some(JStr("N/A"))
  {
    var fs := DefaultDescriptor(company).fields;
    var f1 := fs[1..];
    var f2 := f1[1..];
    var f3 := f2[1..];
    var f4 := f3[1..];
    var f5 := f4[1..];
    assert f1[0].0 == "ticker" && f2[0].0 == "fiscal_year_end" && f3[0].0 == "tenk_url";
    assert f4[0].0 == "investor_relations_url" && f5[0].0 == "earnings_transcript_url";
    assert Lookup(f5, "earnings_transcript_url") == Some(JStr("N/A"));
    assert Lookup(f4, "investor_relations_url") == Some(JStr("N/A"));
    assert Lookup(f4, "earnings_transcript_url") == Lookup(f5, "earnings_transcript_url");
    assert Lookup(f3, "tenk_url") == Some(JStr(EdgarSearch + company));
    assert Lookup(f3, "investor_relations_url") == Lookup(f4, "investor_relations_url");
    assert Lookup(f3, "earnings_transcript_url") == Lookup(f4, "earnings_transcript_url");
    assert Lookup(f2, "fiscal_year_end") == Some(JStr("2024"));
    assert Lookup(f2, "tenk_url") == Lookup(f3, "tenk_url");
    assert Lookup(f2, "investor_relations_url") == Lookup(f3, "investor_relations_url");
    assert Lookup(f2, "earnings_transcript_url") == Lookup(f3, "earnings_transcript_url");
    assert Lookup(f1, "ticker") == Some(JStr("N/A"));
    assert Lookup(f1, "fiscal_year_end") == Lookup(f2, "fiscal_year_end");
    assert Lookup(f1, "tenk_url") == Lookup(f2, "tenk_url");
    assert Lookup(f1, "investor_relations_url") == Lookup(f2, "investor_relations_url");
    assert Lookup(f1, "earnings_transcript_url") == Lookup(f2, "earnings_transcript_url");
  }

  /** The fallback list: one default descriptor per requested company, in the
      order requested. */
  function FallbackDescriptors(companies: seq<string>): (ds: seq<Json>)
    ensures |ds| == |companies|
    ensures forall i :: 0 <= i < |ds| ==> ds[i] == DefaultDescriptor(companies[i])
  {
    if |companies| == 0 then []
    else [DefaultDescriptor(companies[0])] + FallbackDescriptors(companies[1..])
  }

  /** `locate_documents`: a cached call with an empty context. An answer that
      decodes to anything but `null` is returned as decoded; otherwise the
      fallback list is. The closing log line takes `len` of the result, so a decoded
      number or boolean raises there, after the call. The token counts are
      those of the call, and a service error propagates. */
  function LocateDocuments(cfg: Settings.Config, service: Service, parse: Parser, w: World, companies: seq<string>)
    : (r: (Result<(Json, nat, nat), AgentError>, World))
    ensures var (ir, w1) := Invoke(cfg, service, Lead, w, LocatePrompt(companies), "", true);
      && r.1 == w1
      && (ir.Failure? ==> r.0 == Failure(ServiceError(ir.error)))
      && (ir.Success? && ExtractJson(ir.value.text, parse).None? ==>
            r.0 == Success((JArr(FallbackDescriptors(companies)), ir.value.inputTokens, ir.value.outputTokens)))
      && (ir.Success? && ExtractJson(ir.value.text, parse).Some? ==>
            var v := ExtractJson(ir.value.text, parse).value;
            && (r.0.Success? <==> Sized(v))
            && (!Sized(v) ==> r.0 == Failure(TypeError))
            && (Sized(v) ==> r.0.value == (v, ir.value.inputTokens, ir.value.outputTokens)))
    ensures r.0.Success? ==> Sized(r.0.value.0)
  {
    var (ir, w1) := Invoke(cfg, service, Lead, w, LocatePrompt(companies), "", true);
    match ir
    case Failure(e) => (Failure(ServiceError(e)), w1)
    case Success(reply) =>
      var decoded := ExtractJson(reply.text, parse);
      var locations := if decoded.Some? then decoded.value else JArr(FallbackDescriptors(companies));
      if Sized(locations) then (Success((locations, reply.inputTokens, reply.outputTokens)), w1)
      else (Failure(TypeError), w1)
  }

  /** When the answer cannot be decoded, phase 2 sees exactly one descriptor
      per requested company, in order. */
  lemma FallbackIteratesCompanies(companies: seq<string>)
    ensures Iterate(JArr(FallbackDescriptors(companies))) == Some(FallbackDescriptors(companies))
    ensures |FallbackDescriptors(companies)| == |companies|
  {
  }
}

=== FILE: orchestrator.dfy ===
/** The orchestrator: three stages run strictly in order, each on the output
    of the one before, with every stage's usage recorded in the ledger. */
module Orchestrator {
  import opened Common
  import opened JsonValue
  import Settings
  import CacheStore
  import TC = TokenCounter
  import opened BaseAgent
  import LeadAgent
  import CA = CompanyAnalysisAgent
  import SA = SynthesisAgent

  // ---------------------------------------------------------------------------
  // The agents

  /** The lead agent's `locate_documents`: the answer (with the call's token
      counts) and the world after the call. */
  type Locator = (World, seq<string>) -> (Result<(Json, nat, nat), AgentError>, World)

  /** A company analyzer's `analyze_documents` on a descriptor's items,
      without document text: the analysis (with the call's token counts) and
      the world after the call. */
  type Analyzer = (World, string, seq<(string, Json)>) -> (Result<(CA.CompanyAnalysis, nat, nat), AgentError>, World)

  /** The synthesis agent's `create_report`: the report (with the call's
      token counts) and the world after the call. */
  type Reporter = (World, seq<CA.CompanyAnalysis>) -> (Result<(string, nat, nat), ApiError>, World)

  /** The agents the orchestrator runs, as it builds them from its client. */
  datatype Agents = Agents(locate: Locator, analyze: Analyzer, report: Reporter)

  /** The agents built over one client: the lead agent, one analyzer per
      company (created when the company comes up), and the synthesis agent,
      all reading the same settings. */
  function AgentsFor(cfg: Settings.Config, service: Service, parse: Parser, show: Json -> string,
                     dump: seq<SA.Row> -> string): Agents
  {
    Agents((w, companies) => LeadAgent.LocateDocuments(cfg, service, parse, w, companies),
           (w, company, urls) => CA.AnalyzeDocuments(cfg, service, parse, show, w, company, urls, None),
           (w, analyses) => SA.CreateReport(cfg, service, dump, w, analyses))
  }

  /** The built agents answer exactly as `locate_documents`,
      `analyze_documents` (with no document text) and `create_report` do. */
  lemma AgentsForCalls(cfg: Settings.Config, service: Service, parse: Parser, show: Json -> string,
                       dump: seq<SA.Row> -> string, w: World)
    ensures var ag := AgentsFor(cfg, service, parse, show, dump);
      && (forall companies :: ag.locate(w, companies) == LeadAgent.LocateDocuments(cfg, service, parse, w, companies))
      && (forall company, urls :: ag.analyze(w, company, urls)
            == CA.AnalyzeDocuments(cfg, service, parse, show, w, company, urls, None))
      && (forall analyses :: ag.report(w, analyses) == SA.CreateReport(cfg, service, dump, w, analyses))
  {
  }

  /** What a call keeps of the world: the clock reading, the cache when
      caching is off or there is none, and the existence of a cache. */
  predicate KeepsClockAndCache(cfg: Settings.Config, w: World, w1: World) {
    && w1.now == w.now
    && (!(cfg.enableCaching && w.cache.Some?) ==> w1.cache == w.cache)
    && (w.cache.Some? ==> w1.cache.Some?)
  }

  /** An analyzer's result names the company it was asked about. */
  ghost predicate NamesCompany(analyze: Analyzer) {
    forall w, company, urls :: analyze(w, company, urls).0.Success? ==>
      analyze(w, company, urls).0.value.0.company == company
  }

  /** What the orchestrator relies on of its agents: no call moves the clock,
      touches the cache while caching is off, or drops the cache; and an
      analysis names its company. */
  ghost predicate Behaved(ag: Agents, cfg: Settings.Config) {
    && (forall w, companies :: KeepsClockAndCache(cfg, w, ag.locate(w, companies).1))
    && (forall w, company, urls :: KeepsClockAndCache(cfg, w, ag.analyze(w, company, urls).1))
    && (forall w, analyses :: KeepsClockAndCache(cfg, w, ag.report(w, analyses).1))
    && NamesCompany(ag.analyze)
  }

  /** The agents built over any client behave: `invoke` keeps the clock and,
      unless the cache takes part, the cache; the synthesis call never uses
      the cache; and an analysis carries the analyzer's company. */
  lemma AgentsForBehaved(cfg: Settings.Config, service: Service, parse: Parser, show: Json -> string,
                         dump: seq<SA.Row> -> string)
    ensures Behaved(AgentsFor(cfg, service, parse, show, dump), cfg)
  {
    var ag := AgentsFor(cfg, service, parse, show, dump);
    forall w, companies ensures KeepsClockAndCache(cfg, w, ag.locate(w, companies).1) {
      var r := Invoke(cfg, service, LeadAgent.Lead, w, LeadAgent.LocatePrompt(companies), "", true);
      assert ag.locate(w, companies).1 == r.1;
    }
  }

  // ---------------------------------------------------------------------------
  // State

  /** The orchestrator's state: the settings it runs with, its agents, the
      world the calls go through (cache, call counter, recorded delays,
      clock), the usage ledger and the model recorded per agent. */
  datatype Orchestrator = Orchestrator(
    cfg: Settings.Config,
    agents: Agents,
    world: World,
    ledger: TC.Ledger,
    modelsUsed: map<string, string>)

  /** The state invariant: the ledger is consistent and the agents behave. */
  ghost predicate Valid(o: Orchestrator) {
    TC.Valid(o.ledger) && Behaved(o.agents, o.cfg)
  }

  /** What a completed run produced: the stage-one answer, one analysis per
      descriptor, the report and the text written to the report file. */
  datatype Run = Run(locations: Json, analyses: seq<CA.CompanyAnalysis>, report: string, saved: string)

  const LeadName := "LeadAgent"
  const SynthesisName := "SynthesisAgent"

  /** The settings in force once an explicitly given key (if non-empty) has
      replaced the configured one. */
  function EffectiveConfig(cfg: Settings.Config, apiKey: Option<string>): (c: Settings.Config)
    ensures apiKey.Some? && apiKey.value != "" ==> c == cfg.(apiKey := apiKey.value)
    ensures apiKey.None? || apiKey.value == "" ==> c == cfg
  {
    if apiKey.Some? && apiKey.value != "" then cfg.(apiKey := apiKey.value) else cfg
  }

  /** The constructor: validation fails exactly when no key is configured or
      given; otherwise the orchestrator starts with its agents built over the
      client under the effective settings, an empty ledger, no models
      recorded, no call made, and a cache (over the given stored entries)
      exactly when caching is enabled. */
  function NewOrchestrator(cfg: Settings.Config, apiKey: Option<string>,
                           store: map<CacheStore.Fingerprint, CacheStore.Entry<Reply>>, now: int,
                           service: Service, parse: Parser, show: Json -> string, dump: seq<SA.Row> -> string)
    : (r: Result<Orchestrator, string>)
    ensures r.Failure? <==> cfg.apiKey == "" && (apiKey.None? || apiKey.value == "")
    ensures r.Success? ==>
      && r.value.cfg == EffectiveConfig(cfg, apiKey)
      && r.value.agents == AgentsFor(r.value.cfg, service, parse, show, dump)
      && (r.value.world.cache.Some? <==> cfg.enableCaching)
      && (r.value.world.cache.Some? ==> r.value.world.cache.value == CacheStore.NewCache(store))
      && r.value.world.calls == 0 && r.value.world.sleeps == [] && r.value.world.now == now
      && r.value.ledger == TC.EmptyLedger
      && r.value.modelsUsed == map[]
      && Valid(r.value)
  {
    var c := EffectiveConfig(cfg, apiKey);
    match Settings.Validate(c)
    case Failure(e) => Failure(e)
    case Success(_) =>
      TC.EmptyLedgerValid();
      AgentsForBehaved(c, service, parse, show, dump);
      var cache := if c.enableCaching then Some(CacheStore.NewCache(store)) else None;
      Success(Orchestrator(c, AgentsFor(c, service, parse, show, dump), World(cache, 0, [], now), TC.EmptyLedger, map[]))
  }

  // ---------------------------------------------------------------------------
  // Phase 2

  /** `doc_info['company']`: the descriptor must be an object with a string
      under `company`. Indexing anything else is a `TypeError`, a missing key
      a `KeyError`; anything else stops the run. */
  function DescriptorCompany(d: Json): (r: Result<string, AgentError>)
    ensures r.Success? <==> d.JObj? && Lookup(d.fields, "company").Some? && Lookup(d.fields, "company").value.JStr?
    ensures !d.JObj? ==> r == Failure(TypeError)
    ensures d.JObj? && Lookup(d.fields, "company").None? ==> r == Failure(KeyError)
    ensures r.Success? ==> Lookup(d.fields, "company") == Some(JStr(r.value))
  {
    if !d.JObj? then Failure(TypeError)
    else
      var v: Option<Json> := Lookup(d.fields, "company");
      if v.None? then Failure(KeyError)
      else if !v.value.JStr? then Failure(TypeError)
      else Success(v.value.s)
  }

  /** The analyst names of the analyses, in order; none of them is one of the
      fixed agent names. */
  function AnalystNames(analyses: seq<CA.CompanyAnalysis>): (ns: seq<string>)
    ensures |ns| == |analyses|
    ensures forall i :: 0 <= i < |ns| ==> ns[i] == CA.AnalystName(analyses[i].company)
    ensures LeadName !in ns && SynthesisName !in ns
  {
    if |analyses| == 0 then []
    else
      NotAFixedName(analyses[0].company);
      [CA.AnalystName(analyses[0].company)] + AnalystNames(analyses[1..])
  }

  /** An analyst's name ends in `Analyst`, which neither fixed name does. */
  lemma NotAFixedName(company: string)
    ensures CA.AnalystName(company) != LeadName && CA.AnalystName(company) != SynthesisName
  {
    var n := CA.AnalystName(company);
    assert n[|company|..] == "Analyst";
  }

  /** What one pass of the phase-2 loop produced: the analysis and the token
      counts of its call. */
  datatype Pass = Pass(analysis: CA.CompanyAnalysis, inputTokens: nat, outputTokens: nat)

  /** The analyses of the passes, in order. */
  function Analyses(ps: seq<Pass>): (as_: seq<CA.CompanyAnalysis>)
    ensures |as_| == |ps|
    ensures forall i :: 0 <= i < |ps| ==> as_[i] == ps[i].analysis
  {
    if |ps| == 0 then [] else [ps[0].analysis] + Analyses(ps[1..])
  }

  /** `models_used` after each of the names in turn is mapped to `model`:
      the names map to it, and every other entry is as it was. */
  function RecordModel(m: map<string, string>, names: seq<string>, model: string): (r: map<string, string>)
    ensures r.Keys == m.Keys + set n | n in names
    ensures forall k :: k in r ==> r[k] == if k in names then model else m[k]
    decreases |names|
  {
    if |names| == 0 then m
    else
      assert forall k :: k in names <==> k == names[0] || k in names[1..];
      RecordModel(m[names[0] := model], names[1..], model)
  }

  /** Phase 2 as a function of the world: each descriptor in turn is analysed
      by its company's analyzer on the world the previous pass left; the
      first error ends the phase. On success there is one pass per
      descriptor. */
  function AnalyzeAll(analyze: Analyzer, w: World, ds: seq<Json>): (r: (Result<seq<Pass>, AgentError>, World))
    ensures r.0.Success? ==> |r.0.value| == |ds|
    decreases |ds|
  {
    if |ds| == 0 then (Success([]), w)
    else
      var company := DescriptorCompany(ds[0]);
      if company.Failure? then (Failure(company.error), w)
      else
        var (ar, w1) := analyze(w, company.value, ds[0].fields);
        if ar.Failure? then (Failure(ar.error), w1)
        else
          var (rest, w2) := AnalyzeAll(analyze, w1, ds[1..]);
          if rest.Failure? then (Failure(rest.error), w2)
          else (Success([Pass(ar.value.0, ar.value.1, ar.value.2)] + rest.value), w2)
  }

  /** The passes phase 2 finished, in order, before it ended: all of them
      when it succeeded, and otherwise those before the descriptor that
      failed, of which there are fewer than descriptors. */
  function Completed(analyze: Analyzer, w: World, ds: seq<Json>): (ps: seq<Pass>)
    ensures |ps| <= |ds|
    ensures AnalyzeAll(analyze, w, ds).0.Success? ==> ps == AnalyzeAll(analyze, w, ds).0.value
    ensures AnalyzeAll(analyze, w, ds).0.Failure? ==> |ps| < |ds|
    decreases |ds|
  {
    if |ds| == 0 then []
    else
      var company := DescriptorCompany(ds[0]);
      if company.Failure? then []
      else
        var (ar, w1) := analyze(w, company.value, ds[0].fields);
        if ar.Failure? then []
        else [Pass(ar.value.0, ar.value.1, ar.value.2)] + Completed(analyze, w1, ds[1..])
  }

  /** Tracking and recording the finished passes starts with the first
      descriptor's pass, under the name of its company's analyzer. */
  lemma CompletedFirst(analyze: Analyzer, w: World, ds: seq<Json>, l: TC.Ledger, m: map<string, string>, model: string)
    requires |ds| > 0 && DescriptorCompany(ds[0]).Success? && NamesCompany(analyze) && TC.Valid(l)
    requires analyze(w, DescriptorCompany(ds[0]).value, ds[0].fields).0.Success?
    ensures var company := DescriptorCompany(ds[0]).value;
      var (ar, w1) := analyze(w, company, ds[0].fields);
      var name := CA.AnalystName(company);
      var rest := Completed(analyze, w1, ds[1..]);
      && TrackPasses(l, model, Completed(analyze, w, ds))
           == TrackPasses(TC.Track(l, name, model, ar.value.1, ar.value.2), model, rest)
      && RecordModel(m, AnalystNames(Analyses(Completed(analyze, w, ds))), model)
           == RecordModel(m[name := model], AnalystNames(Analyses(rest)), model)
  {
    var company := DescriptorCompany(ds[0]).value;
    var (ar, w1) := analyze(w, company, ds[0].fields);
    var rest := Completed(analyze, w1, ds[1..]);
    var p := Pass(ar.value.0, ar.value.1, ar.value.2);
    var c := [p] + rest;
    assert Completed(analyze, w, ds) == c;
    assert c[0] == p && c[1..] == rest;
    assert p.analysis.company == company;
    assert Analyses(c) == [p.analysis] + Analyses(rest);
    var names := AnalystNames(Analyses(c));
    assert names == [CA.AnalystName(company)] + AnalystNames(Analyses(rest));
    assert names[1..] == AnalystNames(Analyses(rest));
  }

  /** With analyzers that name their company, a completed phase 2 has one
      pass per descriptor, each naming its descriptor's company. */
  lemma {:induction false} AnalyzeAllCompanies(analyze: Analyzer, w: World, ds: seq<Json>)
    requires NamesCompany(analyze)
    ensures var p := AnalyzeAll(analyze, w, ds).0;
      p.Success? ==> forall i :: 0 <= i < |ds| ==> DescriptorCompany(ds[i]) == Success(p.value[i].analysis.company)
    decreases |ds|
  {
    if |ds| > 0 {
      var company := DescriptorCompany(ds[0]);
      if company.Success? {
        var (ar, w1) := analyze(w, company.value, ds[0].fields);
        var (rest, w2) := AnalyzeAll(analyze, w1, ds[1..]);
        if ar.Success? && rest.Success? {
          AnalyzeAllCompanies(analyze, w1, ds[1..]);
          var ps := [Pass(ar.value.0, ar.value.1, ar.value.2)] + rest.value;
          assert AnalyzeAll(analyze, w, ds).0 == Success(ps);
          forall i | 0 <= i < |ds|
            ensures DescriptorCompany(ds[i]) == Success(ps[i].analysis.company)
          {
            if i > 0 {
              assert ds[i] == ds[1..][i - 1] && ps[i] == rest.value[i - 1];
            }
          }
        }
      }
    }
  }

  /** The ledger after the passes' usage is tracked in order, each under its
      analyzer's name: the invariant is kept, and the global record grows by
      what all the passes used. */
  function TrackPasses(l: TC.Ledger, model: string, ps: seq<Pass>): (r: TC.Ledger)
    requires TC.Valid(l)
    ensures TC.Valid(r)
    ensures r.total == TC.Add(l.total, Spent(ps).input, Spent(ps).output)
    decreases |ps|
  {
    if |ps| == 0 then l
    else
      var p := ps[0];
      var l1 := TC.Track(l, CA.AnalystName(p.analysis.company), model, p.inputTokens, p.outputTokens);
      var r := TrackPasses(l1, model, ps[1..]);
      AddChain(l.total, p.inputTokens, p.outputTokens, Spent(ps[1..]), l1.total, r.total);
      r
  }

  lemma AddChain(t0: TC.Usage, i: nat, o: nat, s: TC.Usage, t1: TC.Usage, t2: TC.Usage)
    requires t1 == TC.Add(t0, i, o) && t2 == TC.Add(t1, s.input, s.output)
    ensures t2 == TC.Add(t0, TC.Add(s, i, o).input, TC.Add(s, i, o).output)
  {
  }

  /** The tokens the passes of the analyzer called `name` used together. */
  function SpentBy(ps: seq<Pass>, name: string): (u: TC.Usage)
    ensures name !in AnalystNames(Analyses(ps)) ==> u == TC.Zero
    decreases |ps|
  {
    if |ps| == 0 then TC.Zero
    else
      assert Analyses(ps) == [ps[0].analysis] + Analyses(ps[1..]);
      var rest := SpentBy(ps[1..], name);
      if CA.AnalystName(ps[0].analysis.company) == name then TC.Add(rest, ps[0].inputTokens, ps[0].outputTokens)
      else rest
  }

  /** The tokens all passes used together. */
  function Spent(ps: seq<Pass>): (u: TC.Usage)
    decreases |ps|
  {
    if |ps| == 0 then TC.Zero else TC.Add(Spent(ps[1..]), ps[0].inputTokens, ps[0].outputTokens)
  }

  /** Tracking the passes adds to each analyzer's record what its passes used
      (creating it at zero), and leaves every other record as it was. */
  lemma {:induction false} TrackPassesUsage(l: TC.Ledger, model: string, ps: seq<Pass>, name: string)
    requires TC.Valid(l)
    ensures TC.UsageOf(TrackPasses(l, model, ps), name) ==
      if name in AnalystNames(Analyses(ps))
      then Some(TC.Add(TC.UsageOf(l, name).GetOr(TC.Zero), SpentBy(ps, name).input, SpentBy(ps, name).output))
      else TC.UsageOf(l, name)
    decreases |ps|
  {
    if |ps| > 0 {
      var p := ps[0];
      var a := CA.AnalystName(p.analysis.company);
      var l1 := TC.Track(l, a, model, p.inputTokens, p.outputTokens);
      var rest := ps[1..];
      TrackPassesUsage(l1, model, rest, name);
      var names := AnalystNames(Analyses(rest));
      assert Analyses(ps) == [p.analysis] + Analyses(rest);
      assert AnalystNames(Analyses(ps)) == [a] + names;
      assert TrackPasses(l, model, ps) == TrackPasses(l1, model, rest);
      var here := SpentBy(rest, name);
      if name == a {
        var old_ := TC.UsageOf(l, name).GetOr(TC.Zero);
        var after := TC.Add(old_, p.inputTokens, p.outputTokens);
        assert TC.UsageOf(l1, name) == Some(after);
        assert SpentBy(ps, name) == TC.Add(here, p.inputTokens, p.outputTokens);
        if name !in names {
          assert here == TC.Zero;
        }
        AddChain(old_, p.inputTokens, p.outputTokens, here, after, TC.Add(after, here.input, here.output));
      } else {
        assert TC.UsageOf(l1, name) == TC.UsageOf(l, name);
        assert SpentBy(ps, name) == here;
      }
    }
  }

  /** One pass of the phase-2 loop: the descriptor's company is analysed by
      its own analyzer, and the call's tokens are tracked under that
      analyzer's name, which `models_used` maps to the sub-agent model. A
      descriptor without a company stops the run before any call is made; a
      failed analysis leaves ledger and models as they were. */
  method AnalyzeDescriptor(o: Orchestrator, d: Json) returns (r: Result<CA.CompanyAnalysis, AgentError>, o1: Orchestrator)
    requires Valid(o)
    ensures Valid(o1) && o1.cfg == o.cfg && o1.agents == o.agents
    ensures KeepsClockAndCache(o.cfg, o.world, o1.world)
    ensures DescriptorCompany(d).Failure? ==> r == Failure(DescriptorCompany(d).error) && o1 == o
    ensures DescriptorCompany(d).Success? ==>
      var name := CA.AnalystName(DescriptorCompany(d).value);
      var (ar, w1) := o.agents.analyze(o.world, DescriptorCompany(d).value, d.fields);
      && o1.world == w1
      && (ar.Failure? ==> r == Failure(ar.error) && o1.ledger == o.ledger && o1.modelsUsed == o.modelsUsed)
      && (ar.Success? ==>
            && r == Success(ar.value.0)
            && o1.ledger == TC.Track(o.ledger, name, o.cfg.subModel, ar.value.1, ar.value.2)
            && TC.UsageOf(o1.ledger, name) == Some(TC.Add(TC.UsageOf(o.ledger, name).GetOr(TC.Zero), ar.value.1, ar.value.2))
            && o1.ledger.total == TC.Add(o.ledger.total, ar.value.1, ar.value.2)
            && o1.modelsUsed == o.modelsUsed[name := o.cfg.subModel])
  {
    o1 := o;
    var company := DescriptorCompany(d);
    if company.Failure? {
      return Failure(company.error), o;
    }
    var (ar, w1) := o.agents.analyze(o.world, company.value, d.fields);
    if ar.Failure? {
      return Failure(ar.error), o.(world := w1);
    }
    var (analysis, i, out) := ar.value;
    var name := CA.AnalystName(company.value);
    o1 := o.(world := w1,
             modelsUsed := o.modelsUsed[name := o.cfg.subModel],
             ledger := TC.Track(o.ledger, name, o.cfg.subModel, i, out));
    r := Success(analysis);
  }

  /** `_phase_2_analyze_companies`: a sequential loop over the descriptors.
      It computes `AnalyzeAll`, tracks every pass's tokens under its
      analyzer's name, and maps every analyzer's name to the sub-agent model
      in `models_used`, leaving the other names' models as they were. An
      error stops the loop (and the run), with the bookkeeping of the passes
      before it kept. */
  method AnalyzeCompanies(o: Orchestrator, ds: seq<Json>) returns (r: Result<seq<CA.CompanyAnalysis>, AgentError>, o1: Orchestrator)
    requires Valid(o)
    ensures Valid(o1) && o1.cfg == o.cfg && o1.agents == o.agents
    ensures KeepsClockAndCache(o.cfg, o.world, o1.world)
    ensures var (p, w1) := AnalyzeAll(o.agents.analyze, o.world, ds);
      && o1.world == w1
      && (p.Failure? ==> r == Failure(p.error))
      && (p.Success? ==> r == Success(Analyses(p.value)) && o1.ledger == TrackPasses(o.ledger, o.cfg.subModel, p.value))
    ensures r.Success? ==> o1.modelsUsed == RecordModel(o.modelsUsed, AnalystNames(r.value), o.cfg.subModel)
    ensures r.Failure? ==>
      var done := Completed(o.agents.analyze, o.world, ds);
      && o1.ledger == TrackPasses(o.ledger, o.cfg.subModel, done)
      && o1.modelsUsed == RecordModel(o.modelsUsed, AnalystNames(Analyses(done)), o.cfg.subModel)
    decreases |ds|
  {
    if |ds| == 0 {
      return Success([]), o;
    }
    var step, next := AnalyzeDescriptor(o, ds[0]);
    if step.Failure? {
      return Failure(step.error), next;
    }
    var rest, last := AnalyzeCompanies(next, ds[1..]);
    o1 := last;
    if rest.Failure? {
      CompletedFirst(o.agents.analyze, o.world, ds, o.ledger, o.modelsUsed, o.cfg.subModel);
      return Failure(rest.error), o1;
    }
    var analysis := step.value;
    var names := AnalystNames([analysis] + rest.value);
    assert names == [CA.AnalystName(analysis.company)] + AnalystNames(rest.value);
    assert names[1..] == AnalystNames(rest.value);
    r := Success([analysis] + rest.value);
  }

  // ---------------------------------------------------------------------------
  // Saving

  const ReportTitle := "AI Investment Analysis - Talk vs Walk"

  /** The metadata block written ahead of the report; `generated` is the
      formatted time of writing. */
  function Metadata(generated: string): (m: string)
    ensures |m| >= 5 && m[..4] == "---\n" && m[|m| - 5..] == "---\n\n"
  {
    "---\ntitle: " + ReportTitle + "\ngenerated: " + generated + "\nanalysis_type: Multi-Agent Research System\n---\n\n"
  }

  /** The text `_save_report` writes: the metadata block, then the report,
      which is therefore recoverable as a suffix. */
  function SaveReport(report: string, generated: string): (full: string)
    ensures |full| == |Metadata(generated)| + |report|
    ensures full[..|Metadata(generated)|] == Metadata(generated)
    ensures full[|Metadata(generated)|..] == report
  {
    Metadata(generated) + report
  }

  // ---------------------------------------------------------------------------
  // The run

  /** Phase 1 followed by its bookkeeping: the locator's tokens are tracked
      under `LeadAgent`, which `models_used` maps to the lead model. An error
      (from the service, or the locator's `len` of a scalar answer) stops the
      run with ledger and models as they were. */
  method LocateStage(o: Orchestrator, companies: seq<string>) returns (r: Result<Json, AgentError>, o1: Orchestrator)
    requires Valid(o)
    ensures Valid(o1) && o1.cfg == o.cfg && o1.agents == o.agents
    ensures KeepsClockAndCache(o.cfg, o.world, o1.world)
    ensures var (lr, w1) := o.agents.locate(o.world, companies);
      && o1.world == w1
      && (lr.Failure? ==> r == Failure(lr.error) && o1.ledger == o.ledger && o1.modelsUsed == o.modelsUsed)
      && (lr.Success? ==>
            && r == Success(lr.value.0)
            && o1.ledger == TC.Track(o.ledger, LeadName, o.cfg.leadModel, lr.value.1, lr.value.2)
            && TC.UsageOf(o1.ledger, LeadName) == Some(TC.Add(TC.UsageOf(o.ledger, LeadName).GetOr(TC.Zero), lr.value.1, lr.value.2))
            && o1.ledger.total == TC.Add(o.ledger.total, lr.value.1, lr.value.2)
            && o1.modelsUsed == o.modelsUsed[LeadName := o.cfg.leadModel])
  {
    var (lr, w1) := o.agents.locate(o.world, companies);
    if lr.Failure? {
      return Failure(lr.error), o.(world := w1);
    }
    var (locations, i, out) := lr.value;
    o1 := o.(world := w1,
             modelsUsed := o.modelsUsed[LeadName := o.cfg.leadModel],
             ledger := TC.Track(o.ledger, LeadName, o.cfg.leadModel, i, out));
    r := Success(locations);
  }

  /** Phase 3 followed by its bookkeeping: the report is the synthesis
      agent's answer over the given analyses; its tokens are tracked under
      `SynthesisAgent`, which `models_used` maps to the synthesis model. A
      service error stops the run with ledger and models as they were. */
  method SynthesisStage(o: Orchestrator, analyses: seq<CA.CompanyAnalysis>) returns (r: Result<string, AgentError>, o1: Orchestrator)
    requires Valid(o)
    ensures Valid(o1) && o1.cfg == o.cfg && o1.agents == o.agents
    ensures KeepsClockAndCache(o.cfg, o.world, o1.world)
    ensures var (sr, w1) := o.agents.report(o.world, analyses);
      && o1.world == w1
      && (sr.Failure? ==> r == Failure(ServiceError(sr.error)) && o1.ledger == o.ledger && o1.modelsUsed == o.modelsUsed)
      && (sr.Success? ==>
            && r == Success(sr.value.0)
            && o1.ledger == TC.Track(o.ledger, SynthesisName, o.cfg.synthesisModel, sr.value.1, sr.value.2)
            && TC.UsageOf(o1.ledger, SynthesisName) == Some(TC.Add(TC.UsageOf(o.ledger, SynthesisName).GetOr(TC.Zero), sr.value.1, sr.value.2))
            && o1.ledger.total == TC.Add(o.ledger.total, sr.value.1, sr.value.2)
            && o1.modelsUsed == o.modelsUsed[SynthesisName := o.cfg.synthesisModel])
  {
    var (sr, w1) := o.agents.report(o.world, analyses);
    if sr.Failure? {
      return Failure(ServiceError(sr.error)), o.(world := w1);
    }
    var (report, i, out) := sr.value;
    o1 := o.(world := w1,
             modelsUsed := o.modelsUsed[SynthesisName := o.cfg.synthesisModel],
             ledger := TC.Track(o.ledger, SynthesisName, o.cfg.synthesisModel, i, out));
    r := Success(report);
  }

  /** `run_analysis`. Phase 1 locates the documents; phase 2 analyses each
      item of phase 1's answer, in order, on the world phase 1 left (an
      answer Python cannot iterate stops the run after the lead agent is
      recorded); phase 3 reports over exactly phase 2's analyses, on the
      world phase 2 left; the saved text is the metadata block followed by
      the report. The ledger is the given one with the locator, every
      analyzer pass and the synthesiser tracked in that order; `models_used`
      maps the lead, the synthesiser and every analyzer to their models.
      Whatever the outcome, the invariant is kept, the clock is not moved,
      and without caching the cache is not touched. */
  method RunAnalysis(o: Orchestrator, companies: seq<string>, generated: string) returns (r: Result<Run, AgentError>, o1: Orchestrator)
    requires Valid(o)
    ensures Valid(o1) && o1.cfg == o.cfg && o1.agents == o.agents
    ensures KeepsClockAndCache(o.cfg, o.world, o1.world)
    ensures var (lr, w1) := o.agents.locate(o.world, companies);
      && (lr.Failure? ==> r == Failure(lr.error) && o1.world == w1 && o1.ledger == o.ledger && o1.modelsUsed == o.modelsUsed)
      && (lr.Success? ==>
            var l1 := TC.Track(o.ledger, LeadName, o.cfg.leadModel, lr.value.1, lr.value.2);
            var m1 := o.modelsUsed[LeadName := o.cfg.leadModel];
            && (Iterate(lr.value.0).None? ==> r == Failure(TypeError) && o1.world == w1 && o1.ledger == l1 && o1.modelsUsed == m1)
            && (Iterate(lr.value.0).Some? ==>
                  var (p, w2) := AnalyzeAll(o.agents.analyze, w1, Iterate(lr.value.0).value);
                  var done := Completed(o.agents.analyze, w1, Iterate(lr.value.0).value);
                  var l2 := TrackPasses(l1, o.cfg.subModel, done);
                  var m2 := RecordModel(m1, AnalystNames(Analyses(done)), o.cfg.subModel);
                  && (p.Failure? ==> r == Failure(p.error) && o1.world == w2 && o1.ledger == l2 && o1.modelsUsed == m2)
                  && (p.Success? ==>
                        var (sr, w3) := o.agents.report(w2, Analyses(p.value));
                        && o1.world == w3
                        && (sr.Failure? ==> r == Failure(ServiceError(sr.error)) && o1.ledger == l2 && o1.modelsUsed == m2)
                        && (sr.Success? ==>
                              && r == Success(Run(lr.value.0, Analyses(p.value), sr.value.0, SaveReport(sr.value.0, generated)))
                              && o1.ledger == TC.Track(TrackPasses(l1, o.cfg.subModel, p.value),
                                                       SynthesisName, o.cfg.synthesisModel, sr.value.1, sr.value.2)))))
    ensures r.Success? ==>
      o1.modelsUsed == RecordModel(o.modelsUsed[LeadName := o.cfg.leadModel], AnalystNames(r.value.analyses),
                                   o.cfg.subModel)[SynthesisName := o.cfg.synthesisModel]
  {
    var located, afterLead := LocateStage(o, companies);
    o1 := afterLead;
    if located.Failure? {
      return Failure(located.error), o1;
    }
    var locations := located.value;
    var items := Iterate(locations);
    if items.None? {
      return Failure(TypeError), o1;
    }
    var analysed, afterAnalysts := AnalyzeCompanies(afterLead, items.value);
    o1 := afterAnalysts;
    if analysed.Failure? {
      return Failure(analysed.error), o1;
    }
    var analyses := analysed.value;
    var synthesized, afterSynthesis := SynthesisStage(afterAnalysts, analyses);
    o1 := afterSynthesis;
    if synthesized.Failure? {
      return Failure(synthesized.error), o1;
    }
    var report := synthesized.value;
    r := Success(Run(locations, analyses, report, SaveReport(report, generated)));
  }

  /** The ledger after a successful run: the locator's, the synthesiser's and
      every analyzer's record grew by exactly what their calls used, and the
      global record by all of it. */
  lemma RunLedger(l: TC.Ledger, cfg: Settings.Config, lead: (nat, nat), ps: seq<Pass>, synthesis: (nat, nat))
    requires TC.Valid(l)
    ensures var l1 := TC.Track(l, LeadName, cfg.leadModel, lead.0, lead.1);
      var l3 := TC.Track(TrackPasses(l1, cfg.subModel, ps), SynthesisName, cfg.synthesisModel, synthesis.0, synthesis.1);
      && TC.UsageOf(l3, LeadName) == Some(TC.Add(TC.UsageOf(l, LeadName).GetOr(TC.Zero), lead.0, lead.1))
      && TC.UsageOf(l3, SynthesisName) == Some(TC.Add(TC.UsageOf(l, SynthesisName).GetOr(TC.Zero), synthesis.0, synthesis.1))
      && (forall n :: n in AnalystNames(Analyses(ps)) ==>
            TC.UsageOf(l3, n) == Some(TC.Add(TC.UsageOf(l, n).GetOr(TC.Zero), SpentBy(ps, n).input, SpentBy(ps, n).output)))
      && l3.total == TC.Add(TC.Add(TC.Add(l.total, lead.0, lead.1), Spent(ps).input, Spent(ps).output),
                            synthesis.0, synthesis.1)
  {
    var l1 := TC.Track(l, LeadName, cfg.leadModel, lead.0, lead.1);
    var l2 := TrackPasses(l1, cfg.subModel, ps);
    TrackPassesUsage(l1, cfg.subModel, ps, LeadName);
    TrackPassesUsage(l1, cfg.subModel, ps, SynthesisName);
    forall n | n in AnalystNames(Analyses(ps))
      ensures TC.UsageOf(l2, n) == Some(TC.Add(TC.UsageOf(l, n).GetOr(TC.Zero), SpentBy(ps, n).input, SpentBy(ps, n).output))
    {
      TrackPassesUsage(l1, cfg.subModel, ps, n);
    }
  }

  /** The estimated cost of the passes, each at its analyzer's billed model. */
  function PassesCost(ps: seq<Pass>, modelsUsed: map<string, string>): real
    decreases |ps|
  {
    if |ps| == 0 then 0.0
    else
      var p := ps[0];
      TC.EstimateCost(TC.BilledModel(modelsUsed, CA.AnalystName(p.analysis.company)), p.inputTokens, p.outputTokens)
      + PassesCost(ps[1..], modelsUsed)
  }

  /** Tracking the passes raises the total estimate by the passes' cost. */
  lemma {:induction false} TrackPassesCost(l: TC.Ledger, model: string, ps: seq<Pass>, modelsUsed: map<string, string>)
    requires TC.Valid(l)
    ensures TC.TotalCostEstimate(TrackPasses(l, model, ps), modelsUsed)
         == TC.TotalCostEstimate(l, modelsUsed) + PassesCost(ps, modelsUsed)
    decreases |ps|
  {
    if |ps| > 0 {
      var p := ps[0];
      var l1 := TC.Track(l, CA.AnalystName(p.analysis.company), model, p.inputTokens, p.outputTokens);
      TC.TrackCost(l, modelsUsed, CA.AnalystName(p.analysis.company), model, p.inputTokens, p.outputTokens);
      TrackPassesCost(l1, model, ps[1..], modelsUsed);
      assert TrackPasses(l, model, ps) == TrackPasses(l1, model, ps[1..]);
    }
  }

  /** `get_total_cost_estimate` after a successful run: the estimate before
      it, plus the locator's call, every analyzer pass and the synthesiser's
      call, each at the model its agent is billed at. */
  lemma RunCost(l: TC.Ledger, cfg: Settings.Config, lead: (nat, nat), ps: seq<Pass>, synthesis: (nat, nat),
                modelsUsed: map<string, string>)
    requires TC.Valid(l)
    ensures var l1 := TC.Track(l, LeadName, cfg.leadModel, lead.0, lead.1);
      var l3 := TC.Track(TrackPasses(l1, cfg.subModel, ps), SynthesisName, cfg.synthesisModel, synthesis.0, synthesis.1);
      TC.TotalCostEstimate(l3, modelsUsed)
        == TC.TotalCostEstimate(l, modelsUsed)
         + TC.EstimateCost(TC.BilledModel(modelsUsed, LeadName), lead.0, lead.1)
         + PassesCost(ps, modelsUsed)
         + TC.EstimateCost(TC.BilledModel(modelsUsed, SynthesisName), synthesis.0, synthesis.1)
  {
    var l1 := TC.Track(l, LeadName, cfg.leadModel, lead.0, lead.1);
    var l2 := TrackPasses(l1, cfg.subModel, ps);
    TC.TrackCost(l, modelsUsed, LeadName, cfg.leadModel, lead.0, lead.1);
    TrackPassesCost(l1, cfg.subModel, ps, modelsUsed);
    TC.TrackCost(l2, modelsUsed, SynthesisName, cfg.synthesisModel, synthesis.0, synthesis.1);
  }

  /** `models_used` after a successful run: the lead agent maps to the lead
      model, the synthesiser to the synthesis model, every analyzer to the
      sub-agent model, and every other name to what it mapped to before. */
  lemma RunModels(m: map<string, string>, cfg: Settings.Config, analyses: seq<CA.CompanyAnalysis>)
    ensures var names := AnalystNames(analyses);
      var m1 := RecordModel(m[LeadName := cfg.leadModel], names, cfg.subModel)[SynthesisName := cfg.synthesisModel];
      && (forall k :: k in m1 <==> k in m || k == LeadName || k == SynthesisName || k in names)
      && m1[LeadName] == cfg.leadModel
      && m1[SynthesisName] == cfg.synthesisModel
      && (forall n :: n in names ==> m1[n] == cfg.subModel)
      && (forall k :: k in m && k != LeadName && k != SynthesisName && k !in names ==> m1[k] == m[k])
  {
    var names := AnalystNames(analyses);
    var mid := RecordModel(m[LeadName := cfg.leadModel], names, cfg.subModel);
    assert LeadName !in names && SynthesisName !in names;
    assert forall k :: k in mid <==> k in m || k == LeadName || k in names;
  }

  /** The parallel-execution flag is only reported: flipping it changes
      nothing the locator stage computes. */
  lemma LocateIgnoresParallelFlag(cfg: Settings.Config, b: bool, service: Service, parse: Parser, w: World,
                                  companies: seq<string>)
    ensures LeadAgent.LocateDocuments(cfg.(parallelExecution := b), service, parse, w, companies)
         == LeadAgent.LocateDocuments(cfg, service, parse, w, companies)
  {
    InvokeIgnoresParallelFlag(cfg, b, service, LeadAgent.Lead, w, LeadAgent.LocatePrompt(companies), "", true);
  }

  /** Flipping the flag changes nothing a phase-2 analysis computes: phase 2
      is the same sequential loop whatever its value. */
  lemma AnalyzeIgnoresParallelFlag(cfg: Settings.Config, b: bool, service: Service, parse: Parser,
                                   show: Json -> string, w: World, company: string, urls: seq<(string, Json)>)
    ensures CA.AnalyzeDocuments(cfg.(parallelExecution := b), service, parse, show, w, company, urls, None)
         == CA.AnalyzeDocuments(cfg, service, parse, show, w, company, urls, None)
  {
    InvokeIgnoresParallelFlag(cfg, b, service, CA.Analyst(company), w, CA.AnalysisPrompt(company, None),
                              CA.AnalysisContext(company, urls, show), true);
  }

  /** Flipping the flag changes nothing the synthesis stage computes. */
  lemma ReportIgnoresParallelFlag(cfg: Settings.Config, b: bool, service: Service, dump: seq<SA.Row> -> string,
                                  w: World, analyses: seq<CA.CompanyAnalysis>)
    ensures SA.CreateReport(cfg.(parallelExecution := b), service, dump, w, analyses)
         == SA.CreateReport(cfg, service, dump, w, analyses)
  {
    InvokeIgnoresParallelFlag(cfg, b, service, SA.Synthesizer, w, SA.ReportPrompt, SA.ReportContext(dump, analyses), false);
  }

  // ---------------------------------------------------------------------------
  // Cache maintenance

  /** `clear_cache`: without a cache nothing happens and 0 is reported;
      otherwise every entry is removed and their number reported. */
  method ClearCache(o: Orchestrator) returns (o1: Orchestrator, count: nat)
    ensures o.world.cache.None? ==> count == 0 && o1 == o
    ensures o.world.cache.Some? ==>
      && o1.world.cache.Some?
      && o1.world.cache.value.store == map[]
      && o1.world.cache.value.ttl == o.world.cache.value.ttl
      && count == |o.world.cache.value.store|
    ensures o1.ledger == o.ledger && o1.modelsUsed == o.modelsUsed && o1.cfg == o.cfg
  {
    if o.world.cache.None? {
      return o, 0;
    }
    var c, n := CacheStore.Clear(o.world.cache.value);
    o1 := o.(world := o.world.(cache := Some(c)));
    count := n;
  }

  /** `clear_expired_cache`: without a cache nothing happens and 0 is
      reported; otherwise exactly the live entries remain, untouched, and the
      number removed is reported. */
  method ClearExpiredCache(o: Orchestrator) returns (o1: Orchestrator, count: nat)
    ensures o.world.cache.None? ==> count == 0 && o1 == o
    ensures o.world.cache.Some? ==>
      var c := o.world.cache.value;
      && o1.world.cache.Some?
      && o1.world.cache.value.store.Keys == (set f | f in c.store && CacheStore.Live(c.store[f], o.world.now, c.ttl))
      && (forall f :: f in o1.world.cache.value.store ==> o1.world.cache.value.store[f] == c.store[f])
      && count == |c.store| - |o1.world.cache.value.store|
    ensures o1.ledger == o.ledger && o1.modelsUsed == o.modelsUsed && o1.cfg == o.cfg
  {
    if o.world.cache.None? {
      return o, 0;
    }
    var c, n := CacheStore.ClearExpired(o.world.cache.value, o.world.now);
    o1 := o.(world := o.world.(cache := Some(c)));
    count := n;
  }
}

=== FILE: settings.dfy ===
/** Run configuration: the per-role model and output-token tables, feature
    flags and retry parameters. The process-wide settings object of the
    program becomes an explicit `Config` value passed to every component. */
module Settings {
  import opened Common

  const DefaultModelName := "claude-sonnet-4-5-20250929"
  const LeadModelName := "claude-haiku-4-5-20250929"

  /** Output-token limit for an agent type absent from the role table. */
  const FallbackMaxTokens := 4000

  const DefaultMaxRetries := 3
  const DefaultRetryDelay := 2

  datatype Config = Config(
    apiKey: string,
    defaultModel: string,
    leadModel: string,
    subModel: string,
    synthesisModel: string,
    maxTokensLead: int,
    maxTokensSub: int,
    maxTokensSynthesis: int,
    enableCaching: bool,
    parallelExecution: bool,
    verbose: bool,
    maxRetries: int,
    retryDelay: nat)

  /** The configuration obtained when none of the options is set in the
      environment, apart from the API key. */
  function DefaultConfig(apiKey: string): (c: Config)
    ensures c.enableCaching && !c.parallelExecution && c.verbose
    ensures c.maxRetries == 3 && c.retryDelay == 2
    ensures c.subModel == c.synthesisModel == c.defaultModel != c.leadModel
  {
    var flags := LoadFlags(map[]);
    Config(apiKey, DefaultModelName, LeadModelName, DefaultModelName, DefaultModelName,
           2000, 3000, 6000,
           flags.enableCaching, flags.parallelExecution, flags.verbose,
           DefaultMaxRetries, DefaultRetryDelay)
  }

  /** The model used by an agent of the given type. */
  function ModelForAgent(c: Config, agentType: string): (m: string)
    ensures agentType == "lead" ==> m == c.leadModel
    ensures agentType == "sub" ==> m == c.subModel
    ensures agentType == "synthesis" ==> m == c.synthesisModel
    ensures agentType !in {"lead", "sub", "synthesis"} ==> m == c.defaultModel
  {
    var models := map["lead" := c.leadModel, "sub" := c.subModel, "synthesis" := c.synthesisModel];
    if agentType in models then models[agentType] else c.defaultModel
  }

  /** The output-token limit of an agent of the given type. */
  function MaxTokensForAgent(c: Config, agentType: string): (n: int)
    ensures agentType == "lead" ==> n == c.maxTokensLead
    ensures agentType == "sub" ==> n == c.maxTokensSub
    ensures agentType == "synthesis" ==> n == c.maxTokensSynthesis
    ensures agentType !in {"lead", "sub", "synthesis"} ==> n == FallbackMaxTokens
  {
    var limits := map["lead" := c.maxTokensLead, "sub" := c.maxTokensSub, "synthesis" := c.maxTokensSynthesis];
    if agentType in limits then limits[agentType] else FallbackMaxTokens
  }

  /** A configuration is usable only with a non-empty API key; otherwise the
      program raises a `ValueError`, modelled as a failure carrying its reason. */
  function Validate(c: Config): (r: Result<bool, string>)
    ensures r.Failure? <==> c.apiKey == ""
    ensures r.Success? ==> r.value
  {
    if c.apiKey == "" then Failure("ANTHROPIC_API_KEY not found") else Success(true)
  }

  /** ASCII lower-casing of one character. */
  function LowerChar(ch: char): char {
    if 'A' <= ch <= 'Z' then (ch as int + 32) as char else ch
  }

  function Lower(s: string): (r: string)
    ensures |r| == |s|
    ensures forall i :: 0 <= i < |s| ==> r[i] == LowerChar(s[i])
  {
    seq(|s|, i requires 0 <= i < |s| => LowerChar(s[i]))
  }

  /** A flag is on exactly when its lower-cased text is `true`. */
  function ParseFlag(raw: string): bool {
    Lower(raw) == "true"
  }

  /** `ParseFlag` accepts precisely the sixteen upper- and lower-case spellings of `true`. */
  lemma ParseFlagAccepts(raw: string)
    ensures ParseFlag(raw) <==>
      && |raw| == 4
      && raw[0] in "tT" && raw[1] in "rR" && raw[2] in "uU" && raw[3] in "eE"
  {
    if |raw| == 4 {
      var l := Lower(raw);
      assert l == "true" <==> l[0] == 't' && l[1] == 'r' && l[2] == 'u' && l[3] == 'e';
    }
  }

  datatype Flags = Flags(enableCaching: bool, parallelExecution: bool, verbose: bool)

  /** Reads a flag from the environment, using `default` when it is unset. */
  function Flag(env: map<string, string>, name: string, default: string): bool {
    ParseFlag(if name in env then env[name] else default)
  }

  /** The three feature flags; caching and verbose output default to on,
      parallel execution to off. */
  function LoadFlags(env: map<string, string>): (f: Flags)
    ensures "ENABLE_CACHING" !in env ==> f.enableCaching
    ensures "PARALLEL_EXECUTION" !in env ==> !f.parallelExecution
    ensures "VERBOSE" !in env ==> f.verbose
    ensures "ENABLE_CACHING" in env ==> (f.enableCaching <==> Lower(env["ENABLE_CACHING"]) == "true")
    ensures "PARALLEL_EXECUTION" in env ==> (f.parallelExecution <==> Lower(env["PARALLEL_EXECUTION"]) == "true")
    ensures "VERBOSE" in env ==> (f.verbose <==> Lower(env["VERBOSE"]) == "true")
  {
    Flags(Flag(env, "ENABLE_CACHING", "true"),
          Flag(env, "PARALLEL_EXECUTION", "false"),
          Flag(env, "VERBOSE", "true"))
  }
}

=== FILE: synthesis_agent.dfy ===
/** The synthesis stage: one row per analysis, ordered by total mentions
    (highest first, ties in input order), handed to one uncached call. */
module SynthesisAgent {
  import opened Common
  import Settings
  import opened BaseAgent
  import CA = CompanyAnalysisAgent

  /** The record the stage serialises for each analysis. */
  datatype Row = Row(
    company: string,
    genAiMentions: int,
    mlMentions: int,
    totalMentions: int,
    capexAi: string,
    cfoQuote: string,
    insights: string)

  /** The agent's role text is reduced to its opening sentence. */
  const Synthesizer := Agent("SynthesisAgent",
    "You are a synthesis agent responsible for creating comprehensive financial analysis reports.",
    "synthesis")

  /** The report request is reduced to its opening sentence. */
  const ReportPrompt := "Create a comprehensive \"Talk vs Walk\" analysis report for AI investments."

  const ContextHead := "Company Analysis Data:\n"

  function RowOf(a: CA.CompanyAnalysis): Row {
    Row(a.company, a.genAiMentions, a.mlMentions, a.genAiMentions + a.mlMentions,
        a.capexAi, a.cfoQuote, a.keyInsights)
  }

  /** One row per analysis, in the order given. */
  function Rows(analyses: seq<CA.CompanyAnalysis>): (rs: seq<Row>)
    ensures |rs| == |analyses|
    ensures forall i :: 0 <= i < |rs| ==> rs[i] == RowOf(analyses[i])
  {
    if |analyses| == 0 then [] else [RowOf(analyses[0])] + Rows(analyses[1..])
  }

  // ---------------------------------------------------------------------------
  // Ordering: a stable sort on the total, highest first

  predicate NonIncreasing(s: seq<Row>) {
    forall i, j :: 0 <= i < j < |s| ==> s[i].totalMentions >= s[j].totalMentions
  }

  /** The rows of `s` whose total is `t`, in the order of `s`. */
  function Having(s: seq<Row>, t: int): (h: seq<Row>)
    ensures forall y :: y in h ==> y in s && y.totalMentions == t
  {
    if |s| == 0 then []
    else if s[0].totalMentions == t then [s[0]] + Having(s[1..], t)
    else Having(s[1..], t)
  }

  /** Places `x` in front of the first row whose total is not above its own. */
  function InsertDesc(x: Row, s: seq<Row>): (r: seq<Row>)
    ensures |r| == |s| + 1
    ensures multiset(r) == multiset(s) + multiset{x}
  {
    if |s| == 0 then [x]
    else if s[0].totalMentions <= x.totalMentions then [x] + s
    else
      assert s == [s[0]] + s[1..];
      [s[0]] + InsertDesc(x, s[1..])
  }

  /** `list.sort(key=total, reverse=True)`: Python's sort is stable, also in
      reverse, so each row is placed in front of the equal ones that follow it. */
  function SortDesc(s: seq<Row>): (r: seq<Row>)
    ensures |r| == |s|
  {
    if |s| == 0 then []
    else
      assert s == [s[0]] + s[1..];
      InsertDesc(s[0], SortDesc(s[1..]))
  }

  /** A row at least as high as the first of ordered rows can go in front. */
  lemma ConsNonIncreasing(h: Row, tail: seq<Row>)
    requires NonIncreasing(tail)
    requires |tail| > 0 ==> h.totalMentions >= tail[0].totalMentions
    ensures NonIncreasing([h] + tail)
  {
    var r := [h] + tail;
    forall i, j | 0 <= i < j < |r|
      ensures r[i].totalMentions >= r[j].totalMentions
    {
      if i == 0 {
        assert r[j] == tail[j - 1];
        if j > 1 {
          assert tail[0].totalMentions >= tail[j - 1].totalMentions;
        }
      } else {
        assert r[i] == tail[i - 1] && r[j] == tail[j - 1];
      }
    }
  }

  lemma DropNonIncreasing(s: seq<Row>)
    requires NonIncreasing(s) && |s| > 0
    ensures NonIncreasing(s[1..])
  {
    forall i, j | 0 <= i < j < |s| - 1
      ensures s[1..][i].totalMentions >= s[1..][j].totalMentions
    {
      assert s[1..][i] == s[i + 1] && s[1..][j] == s[j + 1];
    }
  }

  /** Inserting into ordered rows keeps them ordered; the first row is then
      either `x` or the old first row. */
  lemma {:induction false} InsertDescSorted(x: Row, s: seq<Row>)
    requires NonIncreasing(s)
    ensures NonIncreasing(InsertDesc(x, s))
    ensures InsertDesc(x, s)[0] == x || InsertDesc(x, s)[0] == s[0]
  {
    if |s| == 0 {
      assert InsertDesc(x, s) == [x];
    } else if s[0].totalMentions <= x.totalMentions {
      assert InsertDesc(x, s) == [x] + s;
      ConsNonIncreasing(x, s);
    } else {
      var rest := s[1..];
      DropNonIncreasing(s);
      InsertDescSorted(x, rest);
      var tail := InsertDesc(x, rest);
      assert InsertDesc(x, s) == [s[0]] + tail;
      assert |rest| > 0 ==> rest[0] == s[1] && s[0].totalMentions >= s[1].totalMentions;
      ConsNonIncreasing(s[0], tail);
    }
  }

  /** The sorted rows are ordered by total, highest first. */
  lemma {:induction false} SortDescSorted(s: seq<Row>)
    ensures NonIncreasing(SortDesc(s))
  {
    if |s| > 0 {
      SortDescSorted(s[1..]);
      InsertDescSorted(s[0], SortDesc(s[1..]));
    }
  }

  lemma InsertPermutes(x: Row, sorted: seq<Row>, rest: seq<Row>)
    requires multiset(sorted) == multiset(rest)
    ensures multiset(InsertDesc(x, sorted)) == multiset([x] + rest)
  {
  }

  /** The sorted rows are a permutation of the input rows. */
  lemma {:induction false} SortDescPermutes(s: seq<Row>)
    ensures multiset(SortDesc(s)) == multiset(s)
  {
    if |s| > 0 {
      var rest := s[1..];
      SortDescPermutes(rest);
      InsertPermutes(s[0], SortDesc(rest), rest);
      assert s == [s[0]] + rest;
    }
  }

  /** Inserting `x` keeps the relative order of the rows of every total, and
      puts `x` in front of the rows that share its total. */
  lemma {:induction false} HavingInsert(x: Row, s: seq<Row>, t: int)
    ensures Having(InsertDesc(x, s), t) == (if x.totalMentions == t then [x] + Having(s, t) else Having(s, t))
  {
    if |s| == 0 {
    } else if s[0].totalMentions <= x.totalMentions {
      assert ([x] + s)[1..] == s;
    } else {
      HavingInsert(x, s[1..], t);
      assert ([s[0]] + InsertDesc(x, s[1..]))[1..] == InsertDesc(x, s[1..]);
      if x.totalMentions == t {
        assert s[0].totalMentions != t;
      }
    }
  }

  /** Stability: for every total, the rows carrying it appear in the sorted
      rows in the same order as in the input. */
  lemma {:induction false} SortDescStable(s: seq<Row>, t: int)
    ensures Having(SortDesc(s), t) == Having(s, t)
  {
    if |s| > 0 {
      SortDescStable(s[1..], t);
      HavingInsert(s[0], SortDesc(s[1..]), t);
    }
  }

  // ---------------------------------------------------------------------------
  // The stage

  /** The rows in the order they are serialised. */
  function SynthesisRows(analyses: seq<CA.CompanyAnalysis>): seq<Row> {
    SortDesc(Rows(analyses))
  }

  /** The serialised rows are the analyses' rows, highest total first, with
      the rows of equal total in the order of their analyses. */
  lemma SynthesisRowsOrdered(analyses: seq<CA.CompanyAnalysis>)
    ensures NonIncreasing(SynthesisRows(analyses))
    ensures multiset(SynthesisRows(analyses)) == multiset(Rows(analyses))
    ensures forall t :: Having(SynthesisRows(analyses), t) == Having(Rows(analyses), t)
  {
    SortDescSorted(Rows(analyses));
    SortDescPermutes(Rows(analyses));
    forall t ensures Having(SortDesc(Rows(analyses)), t) == Having(Rows(analyses), t) {
      SortDescStable(Rows(analyses), t);
    }
  }

  /** The context: the heading line followed by the serialised rows; the JSON
      serialiser is a parameter. */
  function ReportContext(dump: seq<Row> -> string, analyses: seq<CA.CompanyAnalysis>): (c: string)
    ensures |c| >= |ContextHead| && c[..|ContextHead|] == ContextHead
  {
    ContextHead + dump(SynthesisRows(analyses))
  }

  /** The request the stage sends: the synthesis model, its token budget, and
      the role, context and report request composed into one prompt. */
  function ReportRequest(cfg: Settings.Config, dump: seq<Row> -> string, analyses: seq<CA.CompanyAnalysis>): Request {
    RequestFor(cfg, Synthesizer, ReportPrompt, ReportContext(dump, analyses))
  }

  /** `create_report`: an uncached call under the synthesis agent's name. The
      cache is neither read nor written, the call goes through the retry
      loop, and its text and token counts come back unchanged. */
  function CreateReport(cfg: Settings.Config, service: Service, dump: seq<Row> -> string,
                        w: World, analyses: seq<CA.CompanyAnalysis>)
    : (r: (Result<(string, nat, nat), ApiError>, World))
    ensures r.1.cache == w.cache && r.1.now == w.now
    ensures var a := CallApiWithRetry(service, ReportRequest(cfg, dump, analyses),
                                      w.calls, cfg.maxRetries, cfg.retryDelay);
      && r.1.calls == w.calls + a.calls
      && r.1.sleeps == w.sleeps + a.sleeps
      && (r.0.Failure? <==> a.result.Failure?)
      && (a.result.Failure? ==> r.0.error == a.result.error)
      && (a.result.Success? ==> r.0.value == (a.result.value.text, a.result.value.inputTokens, a.result.value.outputTokens))
  {
    var (answer, w1) := Invoke(cfg, service, Synthesizer, w, ReportPrompt, ReportContext(dump, analyses), false);
    match answer
    case Failure(e) => (Failure(e), w1)
    case Success(reply) => (Success((reply.text, reply.inputTokens, reply.outputTokens)), w1)
  }
}

=== FILE: token_counter.dfy ===
/** The usage ledger: token counters per agent and in total, and cost
    estimates from a fixed price table. */
module TokenCounter {
  import opened Common

  datatype Usage = Usage(input: nat, output: nat, total: nat)

  const Zero := Usage(0, 0, 0)

  /** The total counter agrees with its two parts. */
  predicate Consistent(u: Usage) {
    u.total == u.input + u.output
  }

  /** `TokenUsage.add`. */
  function Add(u: Usage, i: nat, o: nat): (r: Usage)
    ensures Consistent(u) ==> Consistent(r)
    ensures r.input >= u.input && r.output >= u.output && r.total >= u.total
  {
    Usage(u.input + i, u.output + o, u.total + i + o)
  }

  /** Two additions amount to one addition of the sums. */
  lemma AddTwice(u: Usage, i1: nat, o1: nat, i2: nat, o2: nat)
    ensures Add(Add(u, i1, o1), i2, o2) == Add(u, i1 + i2, o1 + o2)
  {
  }

  /** Counter-wise sum of two records. */
  function Plus(u: Usage, v: Usage): Usage {
    Usage(u.input + v.input, u.output + v.output, u.total + v.total)
  }

  /** Per-agent records in first-use order, and the global record. */
  datatype Ledger = Ledger(agents: seq<(string, Usage)>, total: Usage)

  const EmptyLedger := Ledger([], Zero)

  /** The sum of a list of per-agent records. */
  function Sum(agents: seq<(string, Usage)>): Usage {
    if |agents| == 0 then Zero else Plus(agents[0].1, Sum(agents[1..]))
  }

  /** The ledger invariant: one record per agent, every record consistent, and
      the global record equal to the sum of the per-agent ones. */
  ghost predicate Valid(l: Ledger) {
    && (forall i, j :: 0 <= i < j < |l.agents| ==> l.agents[i].0 != l.agents[j].0)
    && (forall i :: 0 <= i < |l.agents| ==> Consistent(l.agents[i].1))
    && l.total == Sum(l.agents)
  }

  lemma EmptyLedgerValid()
    ensures Valid(EmptyLedger)
  {
  }

  function UsageOf(l: Ledger, agent: string): Option<Usage> {
    Lookup(l.agents, agent)
  }

  /** Adds `(i, o)` to the record named `agent`, which is in the list. */
  function Bump(agents: seq<(string, Usage)>, agent: string, i: nat, o: nat): (r: seq<(string, Usage)>)
    ensures |r| == |agents|
    ensures forall k :: 0 <= k < |agents| ==> r[k].0 == agents[k].0
    ensures forall k :: 0 <= k < |agents| && agents[k].0 != agent ==> r[k] == agents[k]
    ensures forall k :: 0 <= k < |agents| ==> r[k] == agents[k] || r[k].1 == Add(agents[k].1, i, o)
  {
    if |agents| == 0 then []
    else if agents[0].0 == agent then [(agent, Add(agents[0].1, i, o))] + agents[1..]
    else [agents[0]] + Bump(agents[1..], agent, i, o)
  }

  lemma {:induction false} BumpSum(agents: seq<(string, Usage)>, agent: string, i: nat, o: nat)
    requires exists k :: 0 <= k < |agents| && agents[k].0 == agent
    ensures Sum(Bump(agents, agent, i, o)) == Add(Sum(agents), i, o)
  {
    if agents[0].0 != agent {
      var k :| 0 <= k < |agents| && agents[k].0 == agent;
      assert agents[1..][k - 1].0 == agent;
      BumpSum(agents[1..], agent, i, o);
      assert Bump(agents, agent, i, o)[1..] == Bump(agents[1..], agent, i, o);
    } else {
      assert Bump(agents, agent, i, o)[1..] == agents[1..];
    }
  }

  lemma {:induction false} AppendSum(agents: seq<(string, Usage)>, rec: (string, Usage))
    ensures Sum(agents + [rec]) == Plus(Sum(agents), rec.1)
  {
    if |agents| > 0 {
      assert (agents + [rec])[1..] == agents[1..] + [rec];
      AppendSum(agents[1..], rec);
    } else {
      assert Sum([rec]) == Plus(rec.1, Sum([]));
    }
  }

  /** The record the first `track` of `agent` creates, then adds to. */
  lemma {:induction false} BumpFindsAgent(agents: seq<(string, Usage)>, agent: string, i: nat, o: nat)
    requires forall a, b :: 0 <= a < b < |agents| ==> agents[a].0 != agents[b].0
    requires Lookup(agents, agent).Some?
    ensures Lookup(Bump(agents, agent, i, o), agent) == Some(Add(Lookup(agents, agent).value, i, o))
    ensures forall other :: other != agent ==> Lookup(Bump(agents, agent, i, o), other) == Lookup(agents, other)
  {
    if agents[0].0 != agent {
      BumpFindsAgent(agents[1..], agent, i, o);
    }
  }

  /** `track`: adds the usage to `agent`'s record, created at zero on first use,
      and to the global record; no other agent's record changes, and the ledger
      invariant is kept. */
  function Track(l: Ledger, agent: string, model: string, i: nat, o: nat): (r: Ledger)
    requires Valid(l)
    ensures Valid(r)
    ensures UsageOf(r, agent) == Some(Add(UsageOf(l, agent).GetOr(Zero), i, o))
    ensures forall other :: other != agent ==> UsageOf(r, other) == UsageOf(l, other)
    ensures r.total == Add(l.total, i, o)
  {
    LookupSpec(l.agents, agent);
    if UsageOf(l, agent).Some? then
      var agents := Bump(l.agents, agent, i, o);
      BumpSum(l.agents, agent, i, o);
      BumpFindsAgent(l.agents, agent, i, o);
      Ledger(agents, Add(l.total, i, o))
    else
      var rec := (agent, Add(Zero, i, o));
      AppendSum(l.agents, rec);
      LookupAppend(l.agents, rec);
      Ledger(l.agents + [rec], Add(l.total, i, o))
  }

  lemma {:induction false} LookupAppend(agents: seq<(string, Usage)>, rec: (string, Usage))
    requires Lookup(agents, rec.0).None?
    ensures Lookup(agents + [rec], rec.0) == Some(rec.1)
    ensures forall other :: other != rec.0 ==> Lookup(agents + [rec], other) == Lookup(agents, other)
  {
    if |agents| > 0 {
      assert (agents + [rec])[1..] == agents[1..] + [rec];
      LookupAppend(agents[1..], rec);
    }
  }

  /** Tracking `(A, 100, 50)` then `(A, 10, 5)` from an empty ledger leaves A at
      110 input, 55 output and 165 total tokens. */
  lemma TrackAccumulates(model: string)
    ensures var l := Track(Track(EmptyLedger, "A", model, 100, 50), "A", model, 10, 5);
      UsageOf(l, "A") == Some(Usage(110, 55, 165)) && l.total == Usage(110, 55, 165)
  {
    EmptyLedgerValid();
  }

  // ---------------------------------------------------------------------------
  // Cost estimates

  /** Dollars per million input and output tokens. */
  datatype Price = Price(input: real, output: real)

  const SonnetModel := "claude-sonnet-4-5-20250929"

  const Pricing: map<string, Price> := map[
    "claude-opus-4-5-20251101" := Price(15.0, 75.0),
    SonnetModel := Price(3.0, 15.0),
    "claude-haiku-4-5-20250929" := Price(0.8, 4.0)]

  /** The price of a model, or Sonnet's price for a model the table lacks. */
  function PriceOf(model: string): (p: Price)
    ensures model in Pricing ==> p == Pricing[model]
    ensures model !in Pricing ==> p == Price(3.0, 15.0)
    ensures p.input > 0.0 && p.output > 0.0
  {
    if model in Pricing then Pricing[model] else Pricing[SonnetModel]
  }

  /** `estimate_cost`, in exact arithmetic. */
  function EstimateCost(model: string, i: nat, o: nat): (c: real)
    ensures c >= 0.0
    ensures c == 0.0 <==> i == 0 && o == 0
  {
    var p := PriceOf(model);
    (i as real / 1000000.0) * p.input + (o as real / 1000000.0) * p.output
  }

  /** A model missing from the price table costs what Sonnet costs. */
  lemma EstimateCostFallback(model: string, i: nat, o: nat)
    requires model !in Pricing
    ensures EstimateCost(model, i, o) == EstimateCost(SonnetModel, i, o)
  {
  }

  /** The cost of two batches of tokens is the cost of their sum. */
  lemma EstimateCostAdditive(model: string, i1: nat, o1: nat, i2: nat, o2: nat)
    ensures EstimateCost(model, i1 + i2, o1 + o2) == EstimateCost(model, i1, o1) + EstimateCost(model, i2, o2)
  {
    var p := PriceOf(model);
    assert ((i1 + i2) as real / 1000000.0) * p.input
        == (i1 as real / 1000000.0) * p.input + (i2 as real / 1000000.0) * p.input;
    assert ((o1 + o2) as real / 1000000.0) * p.output
        == (o1 as real / 1000000.0) * p.output + (o2 as real / 1000000.0) * p.output;
  }

  /** The model an agent is billed at: its recorded model, else Sonnet. */
  function BilledModel(modelsUsed: map<string, string>, agent: string): string {
    if agent in modelsUsed then modelsUsed[agent] else SonnetModel
  }

  function CostOf(agents: seq<(string, Usage)>, modelsUsed: map<string, string>): real {
    if |agents| == 0 then 0.0
    else
      EstimateCost(BilledModel(modelsUsed, agents[0].0), agents[0].1.input, agents[0].1.output)
      + CostOf(agents[1..], modelsUsed)
  }

  /** `get_total_cost_estimate`: the estimates of all tracked agents, summed. */
  function TotalCostEstimate(l: Ledger, modelsUsed: map<string, string>): (c: real)
    ensures c >= 0.0
  {
    CostNonNegative(l.agents, modelsUsed);
    CostOf(l.agents, modelsUsed)
  }

  lemma {:induction false} CostNonNegative(agents: seq<(string, Usage)>, modelsUsed: map<string, string>)
    ensures CostOf(agents, modelsUsed) >= 0.0
  {
    if |agents| > 0 {
      CostNonNegative(agents[1..], modelsUsed);
    }
  }

  lemma {:induction false} UniformCostOf(agents: seq<(string, Usage)>, modelsUsed: map<string, string>, model: string)
    requires forall k :: 0 <= k < |agents| ==> BilledModel(modelsUsed, agents[k].0) == model
    ensures CostOf(agents, modelsUsed) == EstimateCost(model, Sum(agents).input, Sum(agents).output)
  {
    if |agents| > 0 {
      UniformCostOf(agents[1..], modelsUsed, model);
      var rest := Sum(agents[1..]);
      EstimateCostAdditive(model, agents[0].1.input, agents[0].1.output, rest.input, rest.output);
    }
  }

  /** When every tracked agent is billed at one model, the total estimate is
      that model's price for the global counters. */
  lemma TotalCostUniform(l: Ledger, modelsUsed: map<string, string>, model: string)
    requires Valid(l)
    requires forall k :: 0 <= k < |l.agents| ==> BilledModel(modelsUsed, l.agents[k].0) == model
    ensures TotalCostEstimate(l, modelsUsed) == EstimateCost(model, l.total.input, l.total.output)
  {
    UniformCostOf(l.agents, modelsUsed, model);
  }

  /** With no recorded models, everything is billed at Sonnet's price. */
  lemma TotalCostUnrecorded(l: Ledger)
    requires Valid(l)
    ensures TotalCostEstimate(l, map[]) == EstimateCost(SonnetModel, l.total.input, l.total.output)
  {
    TotalCostUniform(l, map[], SonnetModel);
  }

  lemma {:induction false} BumpCost(agents: seq<(string, Usage)>, modelsUsed: map<string, string>, agent: string, i: nat, o: nat)
    requires exists k :: 0 <= k < |agents| && agents[k].0 == agent
    ensures CostOf(Bump(agents, agent, i, o), modelsUsed)
         == CostOf(agents, modelsUsed) + EstimateCost(BilledModel(modelsUsed, agent), i, o)
  {
    var b := Bump(agents, agent, i, o);
    if agents[0].0 != agent {
      var k :| 0 <= k < |agents| && agents[k].0 == agent;
      assert agents[1..][k - 1].0 == agent;
      BumpCost(agents[1..], modelsUsed, agent, i, o);
      assert b[1..] == Bump(agents[1..], agent, i, o);
    } else {
      assert b[1..] == agents[1..];
      EstimateCostAdditive(BilledModel(modelsUsed, agent), agents[0].1.input, agents[0].1.output, i, o);
    }
  }

  lemma {:induction false} AppendCost(agents: seq<(string, Usage)>, modelsUsed: map<string, string>, rec: (string, Usage))
    ensures CostOf(agents + [rec], modelsUsed)
         == CostOf(agents, modelsUsed) + EstimateCost(BilledModel(modelsUsed, rec.0), rec.1.input, rec.1.output)
  {
    if |agents| > 0 {
      assert (agents + [rec])[1..] == agents[1..] + [rec];
      AppendCost(agents[1..], modelsUsed, rec);
    } else {
      assert CostOf([rec], modelsUsed) == EstimateCost(BilledModel(modelsUsed, rec.0), rec.1.input, rec.1.output) + CostOf([], modelsUsed);
    }
  }

  /** Each `track` raises the total estimate by exactly the cost of the tracked
      tokens at the agent's billed model, whether the agent is new or not. */
  lemma TrackCost(l: Ledger, modelsUsed: map<string, string>, agent: string, model: string, i: nat, o: nat)
    requires Valid(l)
    ensures TotalCostEstimate(Track(l, agent, model, i, o), modelsUsed)
         == TotalCostEstimate(l, modelsUsed) + EstimateCost(BilledModel(modelsUsed, agent), i, o)
  {
    LookupSpec(l.agents, agent);
    if UsageOf(l, agent).Some? {
      BumpCost(l.agents, modelsUsed, agent, i, o);
    } else {
      AppendCost(l.agents, modelsUsed, (agent, Add(Zero, i, o)));
    }
  }

  // ---------------------------------------------------------------------------
  // Summary

  datatype Summary = Summary(totalInput: nat, totalOutput: nat, totalTokens: nat, agents: seq<(string, Usage)>)

  /** `get_summary`: the global counters and every agent's counters, one
      entry per agent. */
  function GetSummary(l: Ledger): (s: Summary)
    ensures Usage(s.totalInput, s.totalOutput, s.totalTokens) == l.total
    ensures forall a :: Lookup(s.agents, a) == UsageOf(l, a)
    ensures Valid(l) ==> forall i, j :: 0 <= i < j < |s.agents| ==> s.agents[i].0 != s.agents[j].0
    ensures Valid(l) ==> s.totalTokens == s.totalInput + s.totalOutput
    ensures Valid(l) ==> Usage(s.totalInput, s.totalOutput, s.totalTokens) == Sum(s.agents)
  {
    SumConsistent(l.agents);
    Summary(l.total.input, l.total.output, l.total.total, l.agents)
  }

  lemma {:induction false} SumConsistent(agents: seq<(string, Usage)>)
    ensures (forall i :: 0 <= i < |agents| ==> Consistent(agents[i].1)) ==> Consistent(Sum(agents))
  {
    if |agents| > 0 {
      SumConsistent(agents[1..]);
    }
  }
}
